=== FILE: README.md ===
# Booking front-end of a photography studio, modelled in Dafny

The system is a single-page web application for booking photo sessions. A
signed-in client does three things in order: picks a package (a few packages
are merged into one "Base" card with sub-options), then a day and a free start
time on the half-hour grid between 09:00 and 18:00, for a session that lasts the
package's duration, then confirms. Confirming inserts a
`pending` booking. The calendar refuses past days and weekends, but the page
opens with today already selected and offers today's slots whatever its
weekday, so a session on a Saturday or Sunday can be booked when the page is
opened on that day (`Wizard.WeekendBookedFromOpeningDay`). An administrator sees every booking, three summary
figures, and "Approva" / "Rifiuta" buttons for pending rows. New users
register through a validated form. A route table with two guards decides who
sees which page.

The model keeps the logic and drops the rendering and the data store. Every
read or write of the hosted database becomes a parameter or a result value.
Outside module `Seconds`, time is a whole number of minutes in local time (`Clock`); `Seconds` works in milliseconds.

| file | module | what it models |
|---|---|---|
| `wrappers.dfy` | `Wrappers` | `Option` and `Result` |
| `text.dfy` | `Text` | `includes`, `split`, `Number` on digit strings, zero padding, first/last index, ASCII upper-casing |
| `clock.dfy` | `Clock` | instants, the 09:00-18:00 window, the `HH:mm` label and its parse, the weekday |
| `domain.dfy` | `Domain` | the `packages` and `bookings` rows and the three status values |
| `slots.dfy` | `Slots` | the slot generator `fetchSlots` and its bookings query |
| `seconds.dfy` | `Seconds` | the slot generator at millisecond resolution, on a date that carries seconds |
| `confirm.dfy` | `Confirm` | `handleConfirm`: the row a confirmation inserts |
| `packages.dfy` | `Packages` | the grouping of packages into cards |
| `wizard.dfy` | `Wizard` | the three-step page as a state machine, the disabled-day rule, the "Avanti" guard |
| `admin.dfy` | `Admin` | the dashboard figures, the status update, the row actions and badge labels |
| `routes.dfy` | `Routes` | the route table, its two guards, and the role read after sign-in |
| `register.dfy` | `Register` | the sign-up form's rules, its e-mail pattern, and what a submission sends |

The bookings query of the slot generator keeps a row only when it starts at or
after 09:00 and ends at or before 18:00 of the chosen day
(src/pages/Booking.tsx:118-119). A stored booking that crosses 09:00 or 18:00 is
therefore not seen by the generator. `Slots.StraddlingBookingIgnored` shows the
consequence: a booking from 08:30 to 09:30 overlaps the 09:00 slot, yet that
slot is offered. When the bookings read fails, `existingBookings?.some(...)`
is undefined (src/pages/Booking.tsx:141), so no slot conflicts and every slot
that has not begun is offered (`Slots.FailedReadOffersAllButPast`).

## Model

| member | source | states |
|---|---|---|
| Clock.Label | src/pages/Booking.tsx:148 | a slot label is five characters with ':' in the middle, `HH:mm` |
| Clock.LabelRoundTrip | src/pages/Booking.tsx:168-169 | splitting a generated `HH:mm` label on ':' and reading both numbers gives back the slot's hour and minute |
| Clock.LabelInjective | src/pages/Booking.tsx:148 | two different minutes of the day never get the same label, so a label names one slot |
| Clock.Weekday | src/pages/Booking.tsx:306 | the day of the week is always in 0..6 |
| Clock.WeekdayCalendar | src/pages/Booking.tsx:306 | 1 January 1970 is a Thursday (4), 3 January a Saturday (6), 4 January a Sunday (0), and each next day moves the weekday one place on modulo 7, which fixes 0 as Sunday and 6 as Saturday on every day |
| Clock.ParseTime | src/pages/Booking.tsx:168 | a time with no ':' never parses |
| Clock.ParseTimeOfParts | src/pages/Booking.tsx:168 | hours are the number before the first ':', minutes the number after it up to any second ':', the rest is ignored, and a part that is not a digit string fails |
| Text.SplitJoinRoundTrip | src/pages/Booking.tsx:168 | splitting the joined parts on a separator that occurs in none of them gives the parts back |
| Slots.DayBookings | src/pages/Booking.tsx:115-120 | the query returns exactly the stored rows that are not cancelled and lie within 09:00-18:00 of the day |
| Slots.DayBookingsAppend | src/pages/Booking.tsx:115-120 | the query is a row filter: it distributes over any split of the table |
| Slots.Fetched | src/pages/Booking.tsx:115-120 | a failed read gives no rows; otherwise exactly the rows the query filters keep |
| Slots.FailedReadOffersAllButPast | src/pages/Booking.tsx:141-149 | with a failed bookings read, a slot is offered iff it has not begun |
| Slots.WindowRowBlocks | src/pages/Booking.tsx:115-149 | a stored row that is not cancelled and lies inside 09:00-18:00 makes every slot it overlaps unavailable |
| Slots.Conflicts | src/pages/Booking.tsx:141-145 | a slot conflicts exactly when some returned booking overlaps it as half-open intervals |
| Slots.TouchingDoesNotConflict | src/pages/Booking.tsx:144 | a booking that ends when the slot starts, or starts when it ends, does not block it |
| Slots.SlotCount | src/pages/Booking.tsx:126-131 | number of slots: none for a package longer than 9 hours, (540 - d) / 30 + 1 for 0 < d <= 540, and all 18 candidates otherwise |
| Slots.SlotsFrom | src/pages/Booking.tsx:122-154 | from candidate i the loop emits the candidates i.. up to the count, each with its label and availability |
| Slots.FetchSlots | src/pages/Booking.tsx:109-157 | every slot starts inside the window and ends by 18:00; the first omitted candidate overruns; slot i is labelled with 09:00 + 30·i; it is available iff it overlaps no returned booking and is not in the past |
| Slots.IgnoredBookingIrrelevant | src/pages/Booking.tsx:118-120 | adding a row the query drops (cancelled, or outside the window) changes nothing the generator sees |
| Slots.StraddlingBookingIgnored | src/pages/Booking.tsx:118-119 | a booking from 08:30 to 09:30 overlaps the 09:00 slot, yet that slot is offered |
| Slots.OneHourScenario | src/pages/Booking.tsx:109-157 | one hour with a 10:00-11:00 booking: 17 slots from "09:00" to "17:00", of which exactly 09:30, 10:00 and 10:30 are taken |
| Confirm.HandleConfirm | src/pages/Booking.tsx:163-178 | nothing is built when a selection is missing or the time is empty; an unparsable time fails; otherwise the row starts on the chosen day at the parsed time, lasts the package duration, is pending and carries the user and package ids |
| Confirm.ConfirmLabel | src/pages/Booking.tsx:168-177 | confirming the label of any minute of the day books that minute of the chosen day, for the package's length, pending |
| Confirm.ConfirmSlotLabel | src/pages/Booking.tsx:147-177 | confirming the label of candidate i books the i-th slot start of the chosen day |
| Confirm.ConfirmSlotRoundTrip | src/pages/Booking.tsx:147-170 | confirming the label of generated slot i books exactly that slot's start and the package's length |
| Confirm.StoredRowBlocks | src/pages/Booking.tsx:115-145 | a stored row that the query keeps blocks every slot it overlaps |
| Confirm.NewBookingBlocksItsSlot | src/pages/Booking.tsx:109-178 | once the booking made from slot i is stored, slot i is no longer offered for any positive package length for which slot i fits the day |
| Confirm.FortyFiveMinuteScenario | src/pages/Booking.tsx:168-177 | "14:30" with a 45-minute package books 14:30-15:15, pending |
| Packages.FindFirst | src/pages/Booking.tsx:72-77 | the result is the first package whose name includes every key, or none exists |
| Packages.HasMatchMeans | src/pages/Booking.tsx:72-77 | a keyword matches iff some package name includes its substrings (for Base: "Base" with "Singolo" or with "Coppia") |
| Packages.EntryFor | src/pages/Booking.tsx:81-98 | each keyword gives at most one card, and one exactly when some name matches it |
| Packages.GroupingOrder | src/pages/Booking.tsx:79-98 | cards appear in the order Promo, Base, Premium, Gold, Star, one for each keyword that matches; there are none iff no keyword matches |
| Packages.GroupingFirstMatch | src/pages/Booking.tsx:72-98 | a single card shows the first package matching its keyword; the Base card lists the first Singolo and then the first Coppia package |
| Packages.GroupPackages | src/pages/Booking.tsx:100-105 | with no keyword card the raw list is shown as cards, in order; otherwise exactly the keyword cards |
| Packages.FallbackWhenNothingMatches | src/pages/Booking.tsx:100-102 | when no name contains a keyword, the cards are the packages themselves in their original order |
| Packages.PackageOf | src/pages/Booking.tsx:194-202 | clicking a single card selects the package the card was built from |
| Wizard.Initial | src/pages/Booking.tsx:43-50 | the page opens at step 1 with today selected whatever its weekday, no package and no time, and the wizard invariant holds |
| Wizard.DayDisabled | src/pages/Booking.tsx:303-307 | a day can be picked iff it is not before today and falls Monday to Friday |
| Wizard.NextDisabled | src/pages/Booking.tsx:392 | "Avanti" is enabled at step 1 iff a package and a non-empty group id are chosen, at step 2 iff a non-empty time is chosen, and is never disabled at other steps |
| Wizard.ChooseCard | src/pages/Booking.tsx:192-207 | only step 1 reacts; the card's id becomes the group, a single card selects the package it shows and a group card clears the package; the time is kept unless the time reset is on |
| Wizard.ChooseSubOption | src/pages/Booking.tsx:267-271 | only at step 1 with the Base group chosen does the sub-option become the package; the time is kept unless the time reset is on |
| Wizard.ChooseDate | src/pages/Booking.tsx:301-307 | only step 2 reacts; picking a disabled day changes nothing; an accepted pick sets the date and clears the time |
| Wizard.ChooseTime | src/pages/Booking.tsx:326-335 | only step 2 reacts; the time changes only to a label of an available slot of the current grid, and any such label is taken |
| Wizard.StepWith | src/pages/Booking.tsx:159-161 | the step stays in 1..3; "Avanti" advances exactly when it is enabled below step 3, and "Indietro" goes back exactly from step 2 or 3; a step change touches nothing else; a newly set time is an available label of the current grid |
| Wizard.EnabledAreWorkdays | src/pages/Booking.tsx:303-307 | from today on, the selectable days in a run of days are exactly its Monday-to-Friday days |
| Wizard.WeekHasFiveBookableDays | src/pages/Booking.tsx:303-307 | from today on, every seven consecutive days have exactly five selectable days |
| Wizard.AvailableLabels | src/pages/Booking.tsx:326-338 | a label can be clicked iff some slot with that label is available |
| Wizard.StepKeepsConsistent | src/pages/Booking.tsx:383-392 | on the corrected page, every control keeps the invariant: step in 1..3, a package from step 2, a time at step 3, and a chosen time is an available slot of the current day and package |
| Wizard.RunKeepsConsistent | src/pages/Booking.tsx:160-161 | the invariant holds after any sequence of controls |
| Wizard.ConfirmedBookingWasOffered | src/pages/Booking.tsx:163-178 | on the corrected page, the booking confirmed at step 3 lies inside 09:00-18:00, overlaps no returned booking and is not in the past |
| Wizard.StaleTimeCounterexample | src/pages/Booking.tsx:192-207 | on the page as written, a 09:00 chosen for 30 minutes survives a switch to 60 minutes and the confirmed booking overlaps a stored 09:30-10:30 booking |
| Wizard.WeekendBookedFromOpeningDay | src/pages/Booking.tsx:49 | opened on Saturday 3 January 1970 at 08:00, the page reaches the confirmation of a 09:00-10:00 session that Saturday, a day the calendar disables |
| Seconds.DayBookingsAt | src/pages/Booking.tsx:111-120 | on a date carrying a sub-minute offset, the query keeps exactly the rows not cancelled that lie inside 09:00-18:00 shifted by that offset |
| Seconds.FetchSlotsAt | src/pages/Booking.tsx:109-157 | on such a date the grid has the whole-minute count and labels, and a slot is available iff its shifted interval overlaps no returned row and has not begun |
| Seconds.DayBookingsInMs | src/pages/Booking.tsx:115-120 | with no offset, the query commutes with converting rows from minutes to milliseconds |
| Seconds.ConflictsInMs | src/pages/Booking.tsx:141-145 | overlap is unchanged by converting a slot and the rows to milliseconds |
| Seconds.WholeMinuteGridAgrees | src/pages/Booking.tsx:109-157 | with no offset, the millisecond grid equals the whole-minute grid of `Slots.FetchSlots` slot for slot |
| Seconds.OffsetHidesNineOClockRow | src/pages/Booking.tsx:49 | for every positive offset, a stored 09:00:00-10:00:00 row is not returned and the one-hour 09:00 slot that overlaps it is offered; with no offset the row blocks it |
| Seconds.OffsetMakesTouchingRowConflict | src/pages/Booking.tsx:111-145 | for every positive offset, a stored 10:30:00-11:30:00 row, which only touches the 09:30 one-hour slot on the minute grid, blocks that slot |
| Admin.ComputeStats | src/pages/AdminDashboard.tsx:54-67 | the one-pass fold yields the confirmed-price sum, the number of pending rows and the row count |
| Admin.FetchAdminData | src/pages/AdminDashboard.tsx:34-70 | a failed read keeps the page; a successful one shows the rows and recomputes the three figures from them |
| Admin.TallyAppend | src/pages/AdminDashboard.tsx:58-61 | both figures add up over a concatenation of row lists |
| Admin.TallyReplace | src/pages/AdminDashboard.tsx:58-61 | replacing one row changes each figure by the difference of the two rows' contributions |
| Admin.UpdateStatus | src/pages/AdminDashboard.tsx:72-76 | rows with the given id take the new status, all others are unchanged, and the length is kept |
| Admin.UpdateIsReplace | src/pages/AdminDashboard.tsx:72-76 | with unique ids, the update changes exactly one row's status |
| Admin.UpdateUnknownId | src/pages/AdminDashboard.tsx:72-76 | an update for an id no row has changes nothing |
| Admin.UpdateIdempotent | src/pages/AdminDashboard.tsx:72-76 | writing the same status twice is the same as once |
| Admin.ApproveEffect | src/pages/AdminDashboard.tsx:185-194 | approving a pending row adds its price to the earnings, removes one pending and keeps the total |
| Admin.RejectEffect | src/pages/AdminDashboard.tsx:195-202 | rejecting a pending row keeps the earnings, removes one pending and keeps the total |
| Admin.Target | src/pages/AdminDashboard.tsx:191-199 | "Approva" writes confirmed, "Rifiuta" writes cancelled, so neither writes pending |
| Admin.Actions | src/pages/AdminDashboard.tsx:185-207 | a row offers both buttons iff it is pending, and none otherwise |
| Admin.DecisionIsFinal | src/pages/AdminDashboard.tsx:185-207 | after either button the row offers no further action |
| Admin.HandleUpdateStatus | src/pages/AdminDashboard.tsx:72-83 | a failed update keeps table and page; a successful one writes the status to the matching rows, then the page shows what the fresh read returns with its figures, or stays as it was if that read fails |
| Admin.StatusLabel | src/pages/AdminDashboard.tsx:181 | "In attesa" iff pending, "Confermato" iff confirmed, "Annullato" for every other value |
| Admin.CustomerName | src/pages/AdminDashboard.tsx:157 | the full name when present and non-empty, otherwise "Utente Sconosciuto" |
| Admin.ThreeRowScenario | src/pages/AdminDashboard.tsx:54-67 | confirmed 100, pending 50 and cancelled 80 give earnings 100, one pending and three in total |
| Routes.Route | src/App.tsx:26-33 | "/" always redirects to /dashboard; /login and /register are open; /dashboard and /booking render through the signed-in guard and /admin through the administrator's guard; nothing renders for an undeclared path; the admin page shows only on /admin for the admin role, the signed-in pages only with a user, the loading screen only while loading |
| Routes.Protected | src/App.tsx:9-14 | loading screen iff loading; the page iff settled with a user; otherwise a redirect to /login |
| Routes.AdminOnly | src/App.tsx:16-21 | loading screen iff loading; the page iff settled with a user whose role is "admin"; otherwise a redirect to /dashboard |
| Routes.RedirectTargetsAreRoutes | src/App.tsx:26-33 | every redirect goes to /dashboard or /login |
| Routes.AdminPageAccess | src/App.tsx:32 | /admin renders the administrator's page iff the session has settled with an admin user |
| Routes.AdminReachesProtectedPages | src/App.tsx:30-32 | whoever may open /admin may open /dashboard and /booking |
| Routes.RedirectsSettle | src/App.tsx:27-32 | after at most two redirects no redirect is left; a settled session on a guarded path ends on a page |
| Routes.AdminLanding | src/App.tsx:12-32 | /admin ends on the login form without a user, on the admin page for an admin, and on the dashboard otherwise |
| Routes.RoleFrom | src/lib/auth.tsx:29-41 | the role is "admin" iff the profile row says so; a missing or empty role, or a failed lookup, gives "user" |
| Routes.SettledSession | src/lib/auth.tsx:23-50 | after the first check loading is off, there is a user iff a session was returned, and a role iff there is a user |
| Routes.AdminNeedsAdminRow | src/lib/auth.tsx:28-41 | after the first check /admin renders iff a session exists and its profile row's role is "admin" |
| Register.EmailMatches | src/pages/Register.tsx:94 | every address the scan accepts splits into local part, '@', domain, '.' and a label of at least two letters |
| Register.EmailMatchesIsPattern | src/pages/Register.tsx:94 | the scanning matcher accepts exactly the strings made of a local part, '@', a domain, a dot and a label of at least two letters |
| Register.EmailHasOneAt | src/pages/Register.tsx:94 | an accepted address contains exactly one '@' |
| Register.EmailMinimumLength | src/pages/Register.tsx:94 | an accepted address has at least six characters |
| Register.EmailIgnoresCase | src/pages/Register.tsx:94 | an address is accepted iff its upper-cased form is (the `i` flag) |
| Register.EmailExampleAccepted | src/pages/Register.tsx:94 | "mario@esempio.com" is accepted |
| Register.EmailExampleNoAt | src/pages/Register.tsx:94 | "mario.rossi" is rejected |
| Register.EmailExampleShortLabel | src/pages/Register.tsx:94 | "a@b.c", whose last label has one letter, is rejected |
| Register.FieldError | src/pages/Register.tsx:80-131 | per field the first failing rule: an empty value gets its "obbligatorio" message; then the password's minimum of 6 and the e-mail pattern |
| Register.Validate | src/pages/Register.tsx:80-131 | the error map holds one message for exactly the fields that fail their rules |
| Register.AcceptedForms | src/pages/Register.tsx:80-131 | a form passes iff username, phone and Instagram are filled, the e-mail matches and the password has at least 6 characters |
| Register.RequestFor | src/pages/Register.tsx:18-29 | the sign-up carries the e-mail and password, with the username repeated as the full name |
| Register.ProfileFor | src/pages/Register.tsx:36-45 | the profile row carries the new id and repeats the username as the full name |
| Register.Submit | src/pages/Register.tsx:16-54 | nothing is sent while a field fails; a sign-up error is shown; a success goes to /login and writes a profile iff a user was returned |
| Register.FullNameIsUsername | src/pages/Register.tsx:24-40 | a registered account's full name equals its username, in the metadata and in the profile row |

## Left out

- Reads and writes of the hosted database are not modelled as I/O: a query result is a parameter, and an insert or update is the row it would write. Authentication calls are treated the same way.
- Races between asynchronous requests are not modelled. The slot grid is taken as already fetched for the current day and package. The authentication listener (`onAuthStateChange`) and the `mounted` flag are left out. Only the outcome of the first session check is modelled, including the "user" role default (src/lib/auth.tsx:32).
- Time zones and daylight saving time are not modelled. An instant is local minutes, and `isSameDay` compares `DayOf`.
- Slots.FetchSlots, Wizard.Initial and Confirm.HandleConfirm: outside module `Seconds`, every date starts on the minute. The date the page opens with carries the seconds and milliseconds of that moment, which shift the query window and the grid of that day; module `Seconds` models that shift and its consequences, reported under "## Findings". A booking confirmed on that date carries the same offset (src/pages/Booking.tsx:169): a one-hour 17:00 booking then ends at 18:00:ss, so a later query of that day from a date picked in the calendar drops it through its end filter (line 119). This second consequence is not modelled. Seconds of the clock itself matter only to `isPast` and are dropped in the minute model.
- `Number(...)` is modelled only on digit strings, with "" read as 0. Any other text, such as signs, blanks or decimals, counts as an invalid time. The page only ever produces two-digit labels.
- Rendering, the calendar widget, the navigation bar, the login page and the client's own dashboard page are not modelled. They hold no logic beyond what is modelled here.
- Prices are whole numbers. Decimal prices and the page's floating-point sum of them (src/pages/AdminDashboard.tsx:59) are not modelled.
- Routes.Route: paths are matched as exact strings. The router's case-insensitive matching and its tolerance of a trailing slash are not modelled.
- The admin list's ordering by start time is not modelled: rows are taken in the order given. The loading spinner and the alert text are left out too.
- Packages.GroupPackages: the packages are taken in the order the query returns them. Ordering by price is not modelled, and a failed package read, which leaves the card list empty, is not modelled.
- Wizard.StepWith: a sub-option event carries any package. The page only offers the Base group's own sub-options, so the model is weaker there.
- Register.Validate: lengths count characters, whereas the browser counts UTF-16 code units. The browser's own check of an `type="email"` input, which runs before the form's rules, is not modelled.
- Register.Submit: a failure to write the profile row is ignored, as on the page, so the outcome does not record it.

## Findings

| source | as written | input that shows it | evidently intended | confidence | as-written member | corrected member |
|---|---|---|---|---|---|---|
| src/pages/Booking.tsx:192-207 | choosing another package (or sub-option, lines 267-271) keeps the selected time, while choosing a date clears it (line 301) | stored booking 09:30-10:30 on a Monday; pick the 30-minute package, Monday, 09:00; go back, pick the 60-minute package, go forward twice and confirm: the new booking 09:00-10:00 overlaps the stored one | a package change clears the selected time, so step 3 is reached only with a slot offered for the current package | not executed | Wizard.StaleTimeCounterexample | Wizard.ConfirmedBookingWasOffered |
| src/pages/Booking.tsx:49 | the date the page opens with is `new Date()`, and `setHours`/`setMinutes` (lines 111-112, 169) keep its seconds and milliseconds, so on that date the query window runs from 09:00:ss to 18:00:ss and so does the grid | a pending booking 09:00:00-10:00:00 stored for Monday from a date picked in the calendar; a client opens the page on that Monday at 08:00:05 and chooses a one-hour package: the query drops the booking, 09:00 is offered, and the new booking overlaps the stored one | the day's window and grid start exactly at 09:00:00, as on a date picked in the calendar, so every stored row inside the window blocks the slots it overlaps | not executed | Seconds.OffsetHidesNineOClockRow | Slots.WindowRowBlocks |

=== FILE: admin.dfy ===
/**
 The administrator's dashboard: the three summary figures computed over all
 bookings, the single-row status update behind "Approva" and "Rifiuta", the
 actions offered per row and the labels of the status badge.
 */
module Admin {
  import opened Wrappers
  import opened Domain

  /** The joined `packages` columns of a booking row; absent when the join finds nothing. */
  datatype PackageInfo = PackageInfo(name: string, price: int)

  /** The joined `profiles` columns of a booking row. */
  datatype Profile = Profile(fullName: Option<string>, email: string, phone: Option<string>)

  /** One row as the dashboard reads it. */
  datatype AdminBooking = AdminBooking(
    id: string,
    status: string,
    start: int,
    end: int,
    package: Option<PackageInfo>,
    profile: Option<Profile>)

  /** The three cards at the top of the page. */
  datatype Stats = Stats(totalEarnings: int, pendingCount: nat, totalBookings: nat)

  /** What the page shows: the table and the cards. */
  datatype AdminView = AdminView(bookings: seq<AdminBooking>, stats: Stats)

  /** The price a row contributes; a missing package (or a zero price) counts as 0. */
  function PriceOf(b: AdminBooking): int {
    if b.package.Some? then b.package.value.price else 0
  }

  /** What one row adds to the earnings card: its price when confirmed, else nothing. */
  function EarningsOf(b: AdminBooking): int {
    if b.status == Confirmed then PriceOf(b) else 0
  }

  /** What one row adds to the pending card. */
  function PendingOf(b: AdminBooking): nat {
    if b.status == Pending then 1 else 0
  }

  /** Reference sum of the earnings card, row by row from the front. */
  function Earnings(bs: seq<AdminBooking>): int
    decreases |bs|
  {
    if |bs| == 0 then 0 else Earnings(bs[..|bs| - 1]) + EarningsOf(bs[|bs| - 1])
  }

  /** Reference count of the pending card. */
  function PendingCount(bs: seq<AdminBooking>): nat
    decreases |bs|
  {
    if |bs| == 0 then 0 else PendingCount(bs[..|bs| - 1]) + PendingOf(bs[|bs| - 1])
  }

  /** The fold over the fetched rows: one pass, two accumulators, and the row count. */
  method ComputeStats(bs: seq<AdminBooking>) returns (s: Stats)
    ensures s.totalEarnings == Earnings(bs)
    ensures s.pendingCount == PendingCount(bs)
    ensures s.totalBookings == |bs|
  {
    var earnings := 0;
    var pending := 0;
    var i := 0;
    while i < |bs|
      invariant 0 <= i <= |bs|
      invariant earnings == Earnings(bs[..i])
      invariant pending == PendingCount(bs[..i])
    {
      assert bs[..i + 1][..i] == bs[..i];
      if bs[i].status == Confirmed {
        earnings := earnings + PriceOf(bs[i]);
      }
      if bs[i].status == Pending {
        pending := pending + 1;
      }
      i := i + 1;
    }
    assert bs[..|bs|] == bs;
    s := Stats(earnings, pending, |bs|);
  }

  /**
   Loading the dashboard: a failed query leaves the page as it was; otherwise
   the table shows the rows and the cards are recomputed from them.
   */
  method FetchAdminData(prev: AdminView, response: Result<seq<AdminBooking>, string>) returns (v: AdminView)
    ensures response.Err? ==> v == prev
    ensures response.Ok? ==> (v.bookings == response.value
      && v.stats == Stats(Earnings(response.value), PendingCount(response.value), |response.value|))
  {
    match response
    case Err(_) =>
      v := prev;
    case Ok(data) =>
      var s := ComputeStats(data);
      v := AdminView(data, s);
  }

  /** Summing over a concatenation is summing over each part. */
  lemma {:induction false} TallyAppend(a: seq<AdminBooking>, b: seq<AdminBooking>)
    ensures Earnings(a + b) == Earnings(a) + Earnings(b)
    ensures PendingCount(a + b) == PendingCount(a) + PendingCount(b)
    decreases |b|
  {
    if |b| == 0 {
      assert a + b == a;
    } else {
      var b' := b[..|b| - 1];
      assert (a + b)[..|a + b| - 1] == a + b';
      assert (a + b)[|a + b| - 1] == b[|b| - 1];
      TallyAppend(a, b');
    }
  }

  /** A single row's contribution to the cards. */
  lemma TallySingle(x: AdminBooking)
    ensures Earnings([x]) == EarningsOf(x) && PendingCount([x]) == PendingOf(x)
  {
    assert [x][..0] == [];
  }

  /** Replacing one row changes each card by the difference of the two rows' contributions. */
  lemma {:induction false} TallyReplace(bs: seq<AdminBooking>, k: int, x: AdminBooking)
    requires 0 <= k < |bs|
    ensures Earnings(bs[k := x]) == Earnings(bs) - EarningsOf(bs[k]) + EarningsOf(x)
    ensures PendingCount(bs[k := x]) == PendingCount(bs) - PendingOf(bs[k]) + PendingOf(x)
  {
    var pre := bs[..k];
    var post := bs[k + 1..];
    assert bs == pre + ([bs[k]] + post);
    assert bs[k := x] == pre + ([x] + post);
    TallyAppend(pre, [bs[k]] + post);
    TallyAppend([bs[k]], post);
    TallyAppend(pre, [x] + post);
    TallyAppend([x], post);
    TallySingle(bs[k]);
    TallySingle(x);
  }

  /** No two rows share an id (the table's primary key). */
  predicate UniqueIds(bs: seq<AdminBooking>) {
    forall i, j :: 0 <= i < j < |bs| ==> bs[i].id != bs[j].id
  }

  /** The update filtered on `id`: every row with that id takes the new status. */
  function UpdateStatus(bs: seq<AdminBooking>, id: string, newStatus: string): (r: seq<AdminBooking>)
    ensures |r| == |bs|
    ensures forall i :: 0 <= i < |bs| ==>
      r[i] == if bs[i].id == id then bs[i].(status := newStatus) else bs[i]
  {
    if |bs| == 0 then []
    else
      var head := if bs[0].id == id then bs[0].(status := newStatus) else bs[0];
      var rest := UpdateStatus(bs[1..], id, newStatus);
      assert forall i :: 1 <= i < |bs| ==> bs[1..][i - 1] == bs[i];
      [head] + rest
  }

  /** With unique ids the update touches exactly the row at the id's position. */
  lemma UpdateIsReplace(bs: seq<AdminBooking>, k: int, newStatus: string)
    requires UniqueIds(bs) && 0 <= k < |bs|
    ensures UpdateStatus(bs, bs[k].id, newStatus) == bs[k := bs[k].(status := newStatus)]
  {
    var r := UpdateStatus(bs, bs[k].id, newStatus);
    forall i | 0 <= i < |bs|
      ensures r[i] == bs[k := bs[k].(status := newStatus)][i]
    {
      if i < k {
        assert bs[i].id != bs[k].id;
      } else if i > k {
        assert bs[k].id != bs[i].id;
      }
    }
  }

  /** An update for an id that no row carries changes nothing. */
  lemma UpdateUnknownId(bs: seq<AdminBooking>, id: string, newStatus: string)
    requires forall i :: 0 <= i < |bs| ==> bs[i].id != id
    ensures UpdateStatus(bs, id, newStatus) == bs
  {
  }

  /** Writing the same status twice is writing it once. */
  lemma UpdateIdempotent(bs: seq<AdminBooking>, id: string, newStatus: string)
    ensures UpdateStatus(UpdateStatus(bs, id, newStatus), id, newStatus) == UpdateStatus(bs, id, newStatus)
  {
  }

  /** The two buttons of a pending row. */
  datatype Action = Approve | Reject

  /** The status a button writes. */
  function Target(a: Action): (s: string)
    ensures s != Pending
    ensures a == Approve ==> s == Confirmed
    ensures a == Reject ==> s == Cancelled
  {
    match a
    case Approve => Confirmed
    case Reject => Cancelled
  }

  /** Buttons shown in a row's last column: both for a pending row, none ("Nessuna azione") otherwise. */
  function Actions(status: string): (r: seq<Action>)
    ensures |r| > 0 <==> status == Pending
    ensures Approve in r <==> status == Pending
    ensures Reject in r <==> status == Pending
  {
    if status == Pending then [Approve, Reject] else []
  }

  /** A decision is final on this page: after either button the row offers no action. */
  lemma DecisionIsFinal(a: Action)
    ensures Actions(Target(a)) == []
  {
  }

  /**
   Approving a pending row: the earnings card grows by its price, the pending
   card drops by one and the total is unchanged.
   */
  lemma ApproveEffect(bs: seq<AdminBooking>, k: int)
    requires UniqueIds(bs) && 0 <= k < |bs| && bs[k].status == Pending
    ensures var after := UpdateStatus(bs, bs[k].id, Target(Approve));
      && Earnings(after) == Earnings(bs) + PriceOf(bs[k])
      && PendingCount(after) + 1 == PendingCount(bs)
      && |after| == |bs|
  {
    UpdateIsReplace(bs, k, Confirmed);
    TallyReplace(bs, k, bs[k].(status := Confirmed));
  }

  /** Rejecting a pending row: earnings unchanged, one fewer pending, same total. */
  lemma RejectEffect(bs: seq<AdminBooking>, k: int)
    requires UniqueIds(bs) && 0 <= k < |bs| && bs[k].status == Pending
    ensures var after := UpdateStatus(bs, bs[k].id, Target(Reject));
      && Earnings(after) == Earnings(bs)
      && PendingCount(after) + 1 == PendingCount(bs)
      && |after| == |bs|
  {
    UpdateIsReplace(bs, k, Cancelled);
    TallyReplace(bs, k, bs[k].(status := Cancelled));
  }

  /**
   A button click. The update is sent; `updateError` is its reply. A failed
   update leaves the table and the page as they were. A successful one writes
   the status and then reloads the page with a fresh read, whose reply is
   `reload`: the page shows what that read returns, or stays as it was when
   the read fails.
   */
  method HandleUpdateStatus(
    table: seq<AdminBooking>, view: AdminView, id: string, newStatus: string,
    updateError: Option<string>, reload: Result<seq<AdminBooking>, string>)
    returns (table': seq<AdminBooking>, view': AdminView)
    ensures updateError.Some? ==> table' == table && view' == view
    ensures updateError.None? ==> table' == UpdateStatus(table, id, newStatus)
    ensures updateError.None? && reload.Err? ==> view' == view
    ensures updateError.None? && reload.Ok? ==> (view'.bookings == reload.value
      && view'.stats == Stats(Earnings(reload.value), PendingCount(reload.value), |reload.value|))
  {
    if updateError.Some? {
      table', view' := table, view;
    } else {
      table' := UpdateStatus(table, id, newStatus);
      view' := FetchAdminData(view, reload);
    }
  }

  /** The status badge: any value other than pending and confirmed reads as cancelled. */
  function StatusLabel(status: string): (r: string)
    ensures r == "In attesa" <==> status == Pending
    ensures r == "Confermato" <==> status == Confirmed
    ensures r == "Annullato" <==> status != Pending && status != Confirmed
  {
    if status == Pending then "In attesa"
    else if status == Confirmed then "Confermato"
    else "Annullato"
  }

  /** The customer column: the profile's full name, or a placeholder when it is missing or empty. */
  function CustomerName(p: Option<Profile>): (r: string)
    ensures r == "Utente Sconosciuto" || (p.Some? && p.value.fullName == Some(r))
    ensures (p.Some? && p.value.fullName.Some? && p.value.fullName.value != "") ==> p.value.fullName == Some(r)
    ensures !(p.Some? && p.value.fullName.Some? && p.value.fullName.value != "") ==> r == "Utente Sconosciuto"
  {
    if p.Some? && p.value.fullName.Some? && p.value.fullName.value != "" then p.value.fullName.value
    else "Utente Sconosciuto"
  }

  /** Confirmed 100, pending 50, cancelled 80: earnings 100, one pending, three in total. */
  lemma ThreeRowScenario()
    ensures var bs := [
        AdminBooking("a", Confirmed, 0, 60, Some(PackageInfo("Gold", 100)), None),
        AdminBooking("b", Pending, 0, 60, Some(PackageInfo("Base", 50)), None),
        AdminBooking("c", Cancelled, 0, 60, Some(PackageInfo("Star", 80)), None)];
      Earnings(bs) == 100 && PendingCount(bs) == 1 && |bs| == 3
  {
    var a := AdminBooking("a", Confirmed, 0, 60, Some(PackageInfo("Gold", 100)), None);
    var b := AdminBooking("b", Pending, 0, 60, Some(PackageInfo("Base", 50)), None);
    var c := AdminBooking("c", Cancelled, 0, 60, Some(PackageInfo("Star", 80)), None);
    assert [a, b, c] == [a] + [b] + [c];
    TallyAppend([a] + [b], [c]);
    TallyAppend([a], [b]);
    TallySingle(a);
    TallySingle(b);
    TallySingle(c);
  }
}

=== FILE: clock.dfy ===
/**
 Time as the booking page sees it. An instant is a whole number of minutes
 since midnight of day 0 (Thursday 1 January 1970) in the browser's local
 time; day `d` at minute-of-day `m` is `At(d, m)`. The `HH:mm` slot label and
 its parse back into hour and minute live here too.
 */
module Clock {
  import opened Wrappers
  import opened Text

  const MinutesPerHour: int := 60
  const MinutesPerDay: int := 24 * MinutesPerHour

  /** The fixed work window, 09:00 to 18:00, as minutes of the day. */
  const WorkStartHour: int := 9
  const WorkEndHour: int := 18
  const WorkStart: int := WorkStartHour * MinutesPerHour
  const WorkEnd: int := WorkEndHour * MinutesPerHour

  /** Distance between two consecutive candidate slots. */
  const SlotStep: int := 30

  /**
   Day `day` at `minute` minutes after its midnight. Like `setHours` followed
   by `setMinutes`, an hour or minute past the end of the day rolls forward.
   */
  function At(day: int, minute: int): int {
    day * MinutesPerDay + minute
  }

  /** The calendar day an instant falls on (`isSameDay` compares these). */
  function DayOf(t: int): int {
    t / MinutesPerDay
  }

  /** `format(t, 'HH:mm')` for a minute of the day. */
  function Label(minute: int): (r: string)
    requires 0 <= minute < MinutesPerDay
    ensures |r| == 5 && r[2] == ':'
  {
    TwoDigits(minute / MinutesPerHour) + ":" + TwoDigits(minute % MinutesPerHour)
  }

  /**
   `selectedTime.split(':').map(Number)` destructured into hours and minutes:
   fails when there is no second part or when either of the first two parts is
   not a number.
   */
  function ParseTime(time: string): (r: Option<(nat, nat)>)
    ensures ':' !in time ==> r.None?
  {
    var parts := SplitOn(time, ':');
    if |parts| < 2 then None
    else
      match (NumberOf(parts[0]), NumberOf(parts[1]))
      case (Some(h), Some(m)) => Some((h, m))
      case _ => None
  }

  /**
   Hours are read from the text before the first ':', minutes from the text
   after it up to the next ':' if any; whatever follows a second ':' is
   ignored, and a part that is not a digit string makes the parse fail.
   */
  lemma ParseTimeOfParts(hh: string, mm: string, tail: Option<string>)
    requires ':' !in hh && ':' !in mm
    ensures var time := if tail.Some? then hh + [':'] + mm + [':'] + tail.value else hh + [':'] + mm;
      ParseTime(time) == if AllDigits(hh) && AllDigits(mm) then Some((DecimalValue(hh), DecimalValue(mm))) else None
  {
    if tail.Some? {
      SplitAfterFirstPart(hh, mm + [':'] + tail.value, ':');
      assert hh + [':'] + mm + [':'] + tail.value == hh + [':'] + (mm + [':'] + tail.value);
      SplitAfterFirstPart(mm, tail.value, ':');
    } else {
      SplitAfterFirstPart(hh, mm, ':');
      SplitWithoutSeparator(mm, ':');
    }
  }

  /** Parsing the label of a minute of the day gives back its hour and minute. */
  lemma LabelRoundTrip(minute: int)
    requires 0 <= minute < MinutesPerDay
    ensures ParseTime(Label(minute)) == Some((minute / MinutesPerHour, minute % MinutesPerHour))
  {
    var hh := TwoDigits(minute / MinutesPerHour);
    var mm := TwoDigits(minute % MinutesPerHour);
    assert ':' !in hh && ':' !in mm;
    SplitAfterFirstPart(hh, mm, ':');
    SplitWithoutSeparator(mm, ':');
    assert Label(minute) == hh + [':'] + mm;
  }

  /** Distinct minutes of the day have distinct labels. */
  lemma LabelInjective(m1: int, m2: int)
    requires 0 <= m1 < MinutesPerDay && 0 <= m2 < MinutesPerDay
    requires Label(m1) == Label(m2)
    ensures m1 == m2
  {
    LabelRoundTrip(m1);
    LabelRoundTrip(m2);
  }

  /** `Date.getDay()`: 0 is Sunday, 6 is Saturday; day 0 was a Thursday. */
  function Weekday(day: int): (w: int)
    ensures 0 <= w < 7
  {
    (day + 4) % 7
  }

  /**
   The weekday matches the calendar: 1 January 1970 (day 0) was a Thursday,
   3 January a Saturday and 4 January a Sunday, and each next day moves the
   weekday one place on, modulo a week. Together these fix it on every day.
   */
  lemma WeekdayCalendar(day: int)
    ensures Weekday(0) == 4 && Weekday(2) == 6 && Weekday(3) == 0
    ensures Weekday(day + 1) == (Weekday(day) + 1) % 7
  {
    var q := (day + 4) / 7;
    assert day + 5 == 7 * q + Weekday(day) + 1;
  }

  /** The first slot of every day is labelled "09:00". */
  lemma WorkStartLabel()
    ensures Label(WorkStart) == "09:00"
  {
    assert TwoDigits(9) == "09" && TwoDigits(0) == "00";
  }

  /** The last one-hour slot of a day is labelled "17:00". */
  lemma SeventeenLabel()
    ensures Label(17 * MinutesPerHour) == "17:00"
  {
    assert TwoDigits(17) == "17" && TwoDigits(0) == "00";
  }
}

=== FILE: confirm.dfy ===
/**
 `handleConfirm` of the booking page without the insert itself: the row it
 would write for the selected package, day and `HH:mm` time.
 */
module Confirm {
  import opened Wrappers
  import opened Text
  import opened Clock
  import opened Domain
  import opened Slots

  /** The row sent to the `bookings` table; the store assigns its id. */
  datatype BookingInsert = BookingInsert(
    userId: string,
    packageId: string,
    start: int,
    end: int,
    status: string)

  datatype ConfirmError =
    | Incomplete   // a selection is missing: the handler returns and writes nothing
    | InvalidTime  // the time does not parse: building the timestamps throws before the insert

  /**
   The booking to insert for `user`, package `pkg`, calendar day `date` and
   slot label `time`: it starts on that day at the parsed hour and minute,
   lasts the package's duration and waits for approval.
   */
  function HandleConfirm(user: Option<string>, pkg: Option<Package>, date: Option<int>, time: Option<string>)
    : (r: Result<BookingInsert, ConfirmError>)
    ensures r == Err(Incomplete) <==> user.None? || pkg.None? || date.None? || Falsy(time)
    ensures r == Err(InvalidTime) <==>
      user.Some? && pkg.Some? && date.Some? && !Falsy(time) && ParseTime(time.value).None?
    ensures r.Ok? ==>
      && ParseTime(time.value).Some?
      && var (h, m) := ParseTime(time.value).value;
      && r.value.start == At(date.value, h * MinutesPerHour + m)
      && r.value.end == r.value.start + pkg.value.durationMinutes
      && r.value.status == Pending
      && r.value.userId == user.value
      && r.value.packageId == pkg.value.id
  {
    if user.None? || pkg.None? || date.None? || Falsy(time) then Err(Incomplete)
    else
      match ParseTime(time.value)
      case None => Err(InvalidTime)
      case Some((hours, minutes)) =>
        var start := At(date.value, hours * MinutesPerHour + minutes);
        Ok(BookingInsert(user.value, pkg.value.id, start, start + pkg.value.durationMinutes, Pending))
  }

  /** The stored row once the insert has been given an id. */
  function Stored(b: BookingInsert, id: string): (row: Booking)
    ensures row.start == b.start && row.end == b.end && row.status == b.status
  {
    Booking(id, b.userId, b.packageId, b.start, b.end, b.status)
  }

  /** Confirming the label of a minute of the day books that minute of the chosen day. */
  lemma ConfirmLabel(user: string, pkg: Package, day: int, minute: int)
    requires 0 <= minute < MinutesPerDay
    ensures HandleConfirm(Some(user), Some(pkg), Some(day), Some(Label(minute)))
      == Ok(BookingInsert(user, pkg.id, At(day, minute), At(day, minute) + pkg.durationMinutes, Pending))
  {
    LabelRoundTrip(minute);
    assert (minute / MinutesPerHour) * MinutesPerHour + minute % MinutesPerHour == minute;
  }

  /** Confirming the label of the `i`-th candidate books the `i`-th slot start of the chosen day. */
  lemma ConfirmSlotLabel(user: string, pkg: Package, day: int, i: nat)
    requires i < 18
    ensures HandleConfirm(Some(user), Some(pkg), Some(day), Some(Label(WorkStart + SlotStep * i)))
      == Ok(BookingInsert(user, pkg.id, SlotStart(day, i), SlotStart(day, i) + pkg.durationMinutes, Pending))
  {
    var minute := WorkStart + SlotStep * i;
    ConfirmLabel(user, pkg, day, minute);
    assert At(day, minute) == SlotStart(day, i);
  }

  /**
   Confirming the label of the `i`-th generated slot books exactly that slot:
   it starts at the slot's start on the chosen day and ends `duration` later.
   */
  lemma ConfirmSlotRoundTrip(user: string, pkg: Package, day: int, response: Option<seq<Booking>>, now: int, i: nat)
    requires i < SlotCount(pkg.durationMinutes)
    ensures HandleConfirm(Some(user), Some(pkg), Some(day), Some(FetchSlots(day, pkg.durationMinutes, response, now)[i].time))
      == Ok(BookingInsert(user, pkg.id, SlotStart(day, i), SlotStart(day, i) + pkg.durationMinutes, Pending))
  {
    var slots := FetchSlots(day, pkg.durationMinutes, response, now);
    assert slots[i].time == Label(WorkStart + SlotStep * i);
    ConfirmSlotLabel(user, pkg, day, i);
  }

  /** A stored row the query keeps blocks every slot it overlaps. */
  lemma StoredRowBlocks(table: seq<Booking>, row: Booking, day: int, start: int, end: int)
    requires QueryMatches(row, day) && Overlaps(start, end, row)
    ensures Conflicts(start, end, Fetched(Some(table + [row]), day))
  {
    DayBookingsAppend(table, [row], day);
    assert DayBookings([row], day) == [row] by {
      assert [row][1..] == [];
    }
    var existing := DayBookings(table + [row], day);
    assert existing[|existing| - 1] == row;
  }

  /**
   Once the booking made from an offered slot is stored, the same slot is no
   longer offered, whatever the (positive) duration of the package asked for.
   */
  lemma NewBookingBlocksItsSlot(
    user: string, pkg: Package, day: int, table: seq<Booking>, now: int, i: nat, id: string, other: int)
    requires pkg.durationMinutes > 0 && other > 0
    requires i < SlotCount(pkg.durationMinutes)
    requires i < SlotCount(other)
    ensures var time := FetchSlots(day, pkg.durationMinutes, Some(table), now)[i].time;
      match HandleConfirm(Some(user), Some(pkg), Some(day), Some(time))
      case Ok(b) => !FetchSlots(day, other, Some(table + [Stored(b, id)]), now)[i].available
      case Err(_) => false
  {
    ConfirmSlotRoundTrip(user, pkg, day, Some(table), now, i);
    var b := BookingInsert(user, pkg.id, SlotStart(day, i), SlotStart(day, i) + pkg.durationMinutes, Pending);
    var row := Stored(b, id);
    StoredRowBlocks(table, row, day, SlotStart(day, i), SlotStart(day, i) + other);
    var time := FetchSlots(day, pkg.durationMinutes, Some(table), now)[i].time;
    assert HandleConfirm(Some(user), Some(pkg), Some(day), Some(time)) == Ok(b);
    var after := FetchSlots(day, other, Some(table + [row]), now);
    assert i < |after|;
    assert !after[i].available;
  }

  /** A 45-minute package confirmed at "14:30" runs from 14:30 to 15:15, pending. */
  lemma FortyFiveMinuteScenario(user: string, pkg: Package, day: int)
    requires pkg.durationMinutes == 45
    ensures HandleConfirm(Some(user), Some(pkg), Some(day), Some("14:30"))
      == Ok(BookingInsert(user, pkg.id, At(day, 14 * 60 + 30), At(day, 15 * 60 + 15), Pending))
  {
    assert Label(14 * 60 + 30) == "14:30" by {
      assert TwoDigits(14) == "14" && TwoDigits(30) == "30";
    }
    ConfirmLabel(user, pkg, day, 14 * 60 + 30);
  }
}

=== FILE: domain.dfy ===
/** Rows of the external data store that the booking front-end reads and writes. */
module Domain {

  /** A purchasable service; prices are whole currency units. */
  datatype Package = Package(
    id: string,
    name: string,
    description: string,
    price: int,
    durationMinutes: int)

  /** A row of the `bookings` table; instants are as in module Clock. */
  datatype Booking = Booking(
    id: string,
    userId: string,
    packageId: string,
    start: int,
    end: int,
    status: string)

  /** The three status values the front-end writes or compares against. */
  const Pending: string := "pending"
  const Confirmed: string := "confirmed"
  const Cancelled: string := "cancelled"
}

=== FILE: packages.dfy ===
/**
 The package cards of the first booking step. Packages are picked out of the
 price-ordered list by name keywords, one card per keyword in a fixed order,
 with the two "Base" variants merged into one card with sub-options; when no
 keyword matches at all the raw list is shown instead.
 */
module Packages {
  import opened Wrappers
  import opened Text
  import opened Domain

  /** A card of the first step: a single package, or the "Base" group. */
  datatype DisplayPackage =
    | Card(id: string, name: string, desc: string, price: int, duration: int)
    | Group(id: string, name: string, desc: string, subOptions: seq<Package>)

  const BaseGroupId: string := "base-group"
  const BaseGroupName: string := "Base"
  const BaseGroupDesc: string := "3 foto con editing."

  /** The keywords, in the order their cards are shown. */
  datatype Keyword = Promo | Base | Premium | Gold | Star

  /** The substrings a name must include for a single-package card. */
  function CardKeys(k: Keyword): seq<string>
    requires k != Base
  {
    match k
    case Promo => ["Promo"]
    case Premium => ["Premium"]
    case Gold => ["Gold"]
    case Star => ["Star"]
  }

  const SingoloKeys: seq<string> := ["Base", "Singolo"]
  const CoppiaKeys: seq<string> := ["Base", "Coppia"]

  predicate MatchesAll(name: string, keys: seq<string>) {
    forall j :: 0 <= j < |keys| ==> Contains(name, keys[j])
  }

  /** `data.find(p => ...)`: the index of the first package whose name includes every key. */
  function FindFirst(ps: seq<Package>, keys: seq<string>): (r: Option<nat>)
    ensures r.Some? ==>
      && r.value < |ps|
      && MatchesAll(ps[r.value].name, keys)
      && forall j :: 0 <= j < r.value ==> !MatchesAll(ps[j].name, keys)
    ensures r.None? ==> forall j :: 0 <= j < |ps| ==> !MatchesAll(ps[j].name, keys)
  {
    if |ps| == 0 then None
    else if MatchesAll(ps[0].name, keys) then Some(0)
    else
      match FindFirst(ps[1..], keys)
      case None => None
      case Some(i) => Some(i + 1)
  }

  /** Package `j` is the first of `ps` whose name includes every key. */
  predicate IsFirstMatch(ps: seq<Package>, j: int, keys: seq<string>) {
    && 0 <= j < |ps|
    && MatchesAll(ps[j].name, keys)
    && forall k :: 0 <= k < j ==> !MatchesAll(ps[k].name, keys)
  }

  /** Some package name matches keyword `k` (for Base: either variant). */
  predicate HasMatch(ps: seq<Package>, k: Keyword) {
    if k == Base then FindFirst(ps, SingoloKeys).Some? || FindFirst(ps, CoppiaKeys).Some?
    else FindFirst(ps, CardKeys(k)).Some?
  }

  /** `HasMatch` in terms of the names themselves. */
  lemma HasMatchMeans(ps: seq<Package>, k: Keyword)
    ensures k == Base ==> (HasMatch(ps, k) <==>
      exists j :: 0 <= j < |ps| && (MatchesAll(ps[j].name, SingoloKeys) || MatchesAll(ps[j].name, CoppiaKeys)))
    ensures k != Base ==> (HasMatch(ps, k) <==> exists j :: 0 <= j < |ps| && MatchesAll(ps[j].name, CardKeys(k)))
  {
  }

  /** The card of a single package, as built for matches and for the fallback. */
  function CardOf(p: Package): DisplayPackage {
    Card(p.id, p.name, p.description, p.price, p.durationMinutes)
  }

  /** The first package matching `keys`, as a list of zero or one element. */
  function FirstOf(ps: seq<Package>, keys: seq<string>): seq<Package> {
    match FindFirst(ps, keys)
    case None => []
    case Some(i) => [ps[i]]
  }

  /** The card keyword `k` contributes: none, or one built from its first match. */
  function EntryFor(ps: seq<Package>, k: Keyword): (e: seq<(Keyword, DisplayPackage)>)
    ensures |e| <= 1
    ensures |e| == 1 <==> HasMatch(ps, k)
    ensures forall i :: 0 <= i < |e| ==> e[i].0 == k
  {
    if k == Base then
      var subOptions := FirstOf(ps, SingoloKeys) + FirstOf(ps, CoppiaKeys);
      if |subOptions| == 0 then []
      else [(Base, Group(BaseGroupId, BaseGroupName, BaseGroupDesc, subOptions))]
    else
      match FindFirst(ps, CardKeys(k))
      case None => []
      case Some(i) => [(k, CardOf(ps[i]))]
  }

  /** The cards of the keywords `ks`, in the order of `ks`. */
  function Entries(ps: seq<Package>, ks: seq<Keyword>): seq<(Keyword, DisplayPackage)> {
    if |ks| == 0 then [] else EntryFor(ps, ks[0]) + Entries(ps, ks[1..])
  }

  const DisplayOrder: seq<Keyword> := [Promo, Base, Premium, Gold, Star]

  /** The keyword cards in display order, each tagged with the keyword that produced it. */
  function TaggedCards(ps: seq<Package>): seq<(Keyword, DisplayPackage)> {
    Entries(ps, DisplayOrder)
  }

  /** `fetchPackages` after a successful read: the cards the first step shows. */
  function GroupPackages(ps: seq<Package>): (r: seq<DisplayPackage>)
    ensures |TaggedCards(ps)| == 0 ==> |r| == |ps| && forall i :: 0 <= i < |ps| ==> r[i] == CardOf(ps[i])
    ensures |TaggedCards(ps)| > 0 ==>
      |r| == |TaggedCards(ps)| && forall i :: 0 <= i < |r| ==> r[i] == TaggedCards(ps)[i].1
  {
    var tagged := TaggedCards(ps);
    if |tagged| == 0 then seq(|ps|, i requires 0 <= i < |ps| => CardOf(ps[i]))
    else seq(|tagged|, i requires 0 <= i < |tagged| => tagged[i].1)
  }

  /** The keywords of a list of tagged cards, in order. */
  function Tags(e: seq<(Keyword, DisplayPackage)>): (r: seq<Keyword>)
    ensures |r| == |e| && forall i :: 0 <= i < |e| ==> r[i] == e[i].0
  {
    seq(|e|, i requires 0 <= i < |e| => e[i].0)
  }

  /** The keywords of `ks` that some package name matches, in the order of `ks`. */
  function MatchedKeywords(ps: seq<Package>, ks: seq<Keyword>): seq<Keyword> {
    if |ks| == 0 then []
    else (if HasMatch(ps, ks[0]) then [ks[0]] else []) + MatchedKeywords(ps, ks[1..])
  }

  /** The cards of `ks` carry exactly the matched keywords of `ks`, in order. */
  lemma {:induction false} EntriesTags(ps: seq<Package>, ks: seq<Keyword>)
    ensures Tags(Entries(ps, ks)) == MatchedKeywords(ps, ks)
    decreases |ks|
  {
    if |ks| > 0 {
      EntriesTags(ps, ks[1..]);
      var head := EntryFor(ps, ks[0]);
      var tail := Entries(ps, ks[1..]);
      assert Tags(head + tail) == Tags(head) + Tags(tail);
      assert Tags(head) == if HasMatch(ps, ks[0]) then [ks[0]] else [];
    }
  }

  /**
   The cards come out as Promo, Base, Premium, Gold, Star, keeping exactly the
   keywords some package name matches; so there are none exactly when no name
   matches any keyword.
   */
  lemma GroupingOrder(ps: seq<Package>)
    ensures Tags(TaggedCards(ps)) ==
      (if HasMatch(ps, Promo) then [Promo] else [])
      + ((if HasMatch(ps, Base) then [Base] else [])
      + ((if HasMatch(ps, Premium) then [Premium] else [])
      + ((if HasMatch(ps, Gold) then [Gold] else [])
      + (if HasMatch(ps, Star) then [Star] else []))))
    ensures |TaggedCards(ps)| == 0 <==> forall k :: !HasMatch(ps, k)
  {
    EntriesTags(ps, DisplayOrder);
    MatchedInDisplayOrder(ps);
    var any := HasMatch(ps, Promo) || HasMatch(ps, Base) || HasMatch(ps, Premium)
      || HasMatch(ps, Gold) || HasMatch(ps, Star);
    assert |TaggedCards(ps)| == 0 <==> !any;
    forall k ensures HasMatch(ps, k) ==> any {
      match k
      case Promo =>
      case Base =>
      case Premium =>
      case Gold =>
      case Star =>
    }
  }

  /** One keyword in front adds its own card, if any, ahead of the rest. */
  lemma MatchedKeywordsCons(ps: seq<Package>, k: Keyword, ks: seq<Keyword>)
    ensures MatchedKeywords(ps, [k] + ks) == (if HasMatch(ps, k) then [k] else []) + MatchedKeywords(ps, ks)
  {
    assert ([k] + ks)[1..] == ks;
  }

  /** The keywords some name matches, listed in display order. */
  lemma MatchedInDisplayOrder(ps: seq<Package>)
    ensures MatchedKeywords(ps, DisplayOrder) ==
      (if HasMatch(ps, Promo) then [Promo] else [])
      + ((if HasMatch(ps, Base) then [Base] else [])
      + ((if HasMatch(ps, Premium) then [Premium] else [])
      + ((if HasMatch(ps, Gold) then [Gold] else [])
      + (if HasMatch(ps, Star) then [Star] else []))))
  {
    assert DisplayOrder == [Promo] + ([Base] + ([Premium] + ([Gold] + ([Star] + []))));
    assert MatchedKeywords(ps, []) == [];
    MatchedKeywordsCons(ps, Star, []);
    MatchedKeywordsCons(ps, Gold, [Star] + []);
    MatchedKeywordsCons(ps, Premium, [Gold] + ([Star] + []));
    MatchedKeywordsCons(ps, Base, [Premium] + ([Gold] + ([Star] + [])));
    MatchedKeywordsCons(ps, Promo, [Base] + ([Premium] + ([Gold] + ([Star] + []))));
  }

  /** `x` is exactly the card its keyword contributes on its own. */
  predicate IsEntryFor(ps: seq<Package>, x: (Keyword, DisplayPackage)) {
    EntryFor(ps, x.0) == [x]
  }

  /** Every card of `Entries` is the one its keyword contributes on its own. */
  lemma {:induction false} EntriesAreEntryFor(ps: seq<Package>, ks: seq<Keyword>)
    ensures forall i {:trigger Entries(ps, ks)[i]} :: 0 <= i < |Entries(ps, ks)| ==> IsEntryFor(ps, Entries(ps, ks)[i])
    decreases |ks|
  {
    if |ks| > 0 {
      EntriesAreEntryFor(ps, ks[1..]);
      var head := EntryFor(ps, ks[0]);
      var tail := Entries(ps, ks[1..]);
      var e := head + tail;
      forall i | 0 <= i < |e|
        ensures IsEntryFor(ps, e[i])
      {
        if i < |head| {
          assert e[i] == head[0] && head == [head[0]];
        } else {
          assert e[i] == tail[i - |head|];
        }
      }
    }
  }

  /**
   Every single-package card shows the first package matching its keyword, and
   the Base card lists the first "Base"+"Singolo" package, then the first
   "Base"+"Coppia" one.
   */
  lemma GroupingFirstMatch(ps: seq<Package>)
    ensures var t := TaggedCards(ps);
      forall i :: 0 <= i < |t| && t[i].0 != Base ==>
        exists j :: IsFirstMatch(ps, j, CardKeys(t[i].0)) && t[i].1 == CardOf(ps[j])
    ensures var t := TaggedCards(ps);
      forall i :: 0 <= i < |t| && t[i].0 == Base ==>
        t[i].1 == Group(BaseGroupId, BaseGroupName, BaseGroupDesc, FirstOf(ps, SingoloKeys) + FirstOf(ps, CoppiaKeys))
  {
    var t := TaggedCards(ps);
    EntriesAreEntryFor(ps, DisplayOrder);
    forall i | 0 <= i < |t| && t[i].0 != Base
      ensures exists j :: IsFirstMatch(ps, j, CardKeys(t[i].0)) && t[i].1 == CardOf(ps[j])
    {
      var k := t[i].0;
      assert IsEntryFor(ps, t[i]);
      assert FindFirst(ps, CardKeys(k)).Some?;
      var j := FindFirst(ps, CardKeys(k)).value;
      assert IsFirstMatch(ps, j, CardKeys(k));
    }
    forall i | 0 <= i < |t| && t[i].0 == Base
      ensures t[i].1 == Group(BaseGroupId, BaseGroupName, BaseGroupDesc, FirstOf(ps, SingoloKeys) + FirstOf(ps, CoppiaKeys))
    {
      assert IsEntryFor(ps, t[i]);
    }
  }

  /**
   When no name contains any keyword, the cards are the packages themselves,
   in their original order.
   */
  lemma FallbackWhenNothingMatches(ps: seq<Package>)
    requires forall k :: !HasMatch(ps, k)
    ensures GroupPackages(ps) == seq(|ps|, i requires 0 <= i < |ps| => CardOf(ps[i]))
  {
    GroupingOrder(ps);
  }

  /** Clicking a single-package card selects exactly the package it was built from. */
  function PackageOf(d: DisplayPackage): (p: Package)
    requires d.Card?
    ensures CardOf(p) == d
  {
    Package(d.id, d.name, d.desc, d.price, d.duration)
  }
}

=== FILE: register.dfy ===
/**
 The sign-up form: the per-field validation rules, the e-mail pattern (as a
 scanning matcher and as a decomposition, proved equivalent), and what a
 submission sends and stores.
 */
module Register {
  import opened Wrappers
  import opened Text

  /** The form's five inputs, as typed. */
  datatype Form = Form(username: string, email: string, cellulare: string, instagram: string, password: string)

  datatype Field = Username | Email | Cellulare | Instagram | Password

  const MinPasswordLength: nat := 6

  const UsernameRequired: string := "Lo username è obbligatorio"
  const EmailRequired: string := "L'email è obbligatoria"
  const EmailInvalid: string := "Indirizzo email non valido"
  const CellulareRequired: string := "Il cellulare è obbligatorio"
  const InstagramRequired: string := "L'account Instagram è obbligatorio"
  const PasswordRequired: string := "La password è obbligatoria"
  const PasswordTooShort: string := "Almeno 6 caratteri"

  /* The e-mail pattern: local part, one '@', domain, a dot, and a top-level label
     of at least two letters; letters match in either case. */

  /** A character of the local part: letters, digits and `._%+-`. */
  predicate IsLocalChar(c: char) {
    IsLetter(c) || IsDigit(c) || c == '.' || c == '_' || c == '%' || c == '+' || c == '-'
  }

  /** A character of the domain before its last dot: letters, digits and `.-`. */
  predicate IsDomainChar(c: char) {
    IsLetter(c) || IsDigit(c) || c == '.' || c == '-'
  }

  predicate AllLocal(s: string) {
    forall k :: 0 <= k < |s| ==> IsLocalChar(s[k])
  }

  predicate AllDomain(s: string) {
    forall k :: 0 <= k < |s| ==> IsDomainChar(s[k])
  }

  predicate AllLetters(s: string) {
    forall k :: 0 <= k < |s| ==> IsLetter(s[k])
  }

  /**
   `s` splits at the '@' at `at` and the dot at `dot` into a non-empty local
   part, a non-empty domain and a top-level label of two or more letters.
   */
  predicate Decomposes(s: string, at: int, dot: int) {
    && 0 < at < dot < |s| - 2
    && s[at] == '@' && s[dot] == '.'
    && at + 1 < dot
    && AllLocal(s[..at])
    && AllDomain(s[at + 1..dot])
    && AllLetters(s[dot + 1..])
  }

  /** The pattern as a set of strings: some split decomposes `s`. */
  predicate EmailPattern(s: string) {
    exists at, dot | 0 <= at < |s| && 0 <= dot < |s| :: Decomposes(s, at, dot)
  }

  /**
   The pattern as a scan: the first '@' ends the local part, and the last dot
   after it starts the top-level label.
   */
  function EmailMatches(s: string): (ok: bool)
    ensures ok ==> EmailPattern(s)
  {
    match IndexOf(s, '@')
    case None => false
    case Some(at) =>
      var rest := s[at + 1..];
      match LastIndexOf(rest, '.')
      case None => false
      case Some(d) =>
        if SplitAccepted(s, at, d) then
          ScanDecomposes(s, at, d);
          true
        else false
  }

  /**
   The checks the scan makes once it has found the '@' at `at` and the last
   dot `d` places after it: every part non-empty, the top-level label at least
   two long, and each part made of its own characters.
   */
  predicate SplitAccepted(s: string, at: nat, d: nat)
    requires at < |s|
  {
    var rest := s[at + 1..];
    && d < |rest| && 0 < at && 0 < d && |rest| - d - 1 >= 2
    && AllLocal(s[..at]) && AllDomain(rest[..d]) && AllLetters(rest[d + 1..])
  }

  /** The split the scan accepts is a decomposition, with the dot `d` places after the '@'. */
  lemma ScanDecomposes(s: string, at: nat, d: nat)
    requires at < |s| && s[at] == '@'
    requires SplitAccepted(s, at, d) && s[at + 1..][d] == '.'
    ensures Decomposes(s, at, at + 1 + d) && EmailPattern(s)
  {
    var rest := s[at + 1..];
    var dot := at + 1 + d;
    assert s[at + 1..dot] == rest[..d];
    assert s[dot + 1..] == rest[d + 1..];
    assert Decomposes(s, at, dot);
  }

  /** The scan accepts exactly the strings the decomposition describes. */
  lemma EmailMatchesIsPattern(s: string)
    ensures EmailMatches(s) <==> EmailPattern(s)
  {
    if EmailPattern(s) {
      var at, dot :| Decomposes(s, at, dot);
      PatternSplit(s, at, dot);
    }
  }

  /** A decomposition's '@' is the first one in the string. */
  lemma DecompositionFirstAt(s: string, at: int, dot: int)
    requires Decomposes(s, at, dot)
    ensures IndexOf(s, '@') == Some(at)
  {
    assert forall k :: 0 <= k < at ==> IsLocalChar(s[..at][k]) && s[..at][k] == s[k];
    var f := IndexOf(s, '@').value;
    assert forall k :: 0 <= k < f ==> s[..f][k] == s[k];
  }

  /** A decomposition's dot is the last one after the '@'. */
  lemma DecompositionLastDot(s: string, at: int, dot: int)
    requires Decomposes(s, at, dot)
    ensures LastIndexOf(s[at + 1..], '.') == Some(dot - at - 1)
  {
    var rest := s[at + 1..];
    var d := dot - at - 1;
    forall j | d < j < |rest|
      ensures rest[j] != '.'
    {
      assert IsLetter(s[dot + 1..][j - d - 1]) && s[dot + 1..][j - d - 1] == rest[j];
    }
    LastIndexOfIs(rest, '.', d);
  }

  /** The scan finds the decomposition's split and accepts. */
  lemma PatternSplit(s: string, at: int, dot: int)
    requires Decomposes(s, at, dot)
    ensures EmailMatches(s)
  {
    DecompositionFirstAt(s, at, dot);
    DecompositionLastDot(s, at, dot);
    var rest := s[at + 1..];
    var d := dot - at - 1;
    assert SplitAccepted(s, at, d) by {
      assert rest[..d] == s[at + 1..dot];
      assert rest[d + 1..] == s[dot + 1..];
    }
  }

  /** The '@' of a decomposition is the only one in the string. */
  lemma OnlyAtOfDecomposition(s: string, at: int, dot: int)
    requires Decomposes(s, at, dot)
    ensures forall k :: 0 <= k < |s| && s[k] == '@' ==> k == at
  {
    assert forall k :: 0 <= k < at ==> IsLocalChar(s[..at][k]) && s[..at][k] == s[k];
    assert forall k :: at < k < dot ==> IsDomainChar(s[at + 1..dot][k - at - 1]) && s[at + 1..dot][k - at - 1] == s[k];
    assert forall k :: dot < k < |s| ==> IsLetter(s[dot + 1..][k - dot - 1]) && s[dot + 1..][k - dot - 1] == s[k];
  }

  /** An address the pattern accepts has exactly one '@'. */
  lemma EmailHasOneAt(s: string)
    requires EmailMatches(s)
    ensures exists at :: 0 <= at < |s| && s[at] == '@' && forall k :: 0 <= k < |s| && s[k] == '@' ==> k == at
  {
    EmailMatchesIsPattern(s);
    var at, dot :| 0 <= at < |s| && 0 <= dot < |s| && Decomposes(s, at, dot);
    OnlyAtOfDecomposition(s, at, dot);
  }

  /** The shortest accepted address has six characters, as in "a@b.cd". */
  lemma EmailMinimumLength(s: string)
    requires EmailMatches(s)
    ensures |s| >= 6
  {
    EmailMatchesIsPattern(s);
  }

  /** Upper-casing preserves every character class of the pattern. */
  lemma UpperKeepsClasses(c: char)
    ensures IsLocalChar(ToUpper(c)) == IsLocalChar(c)
    ensures IsDomainChar(ToUpper(c)) == IsDomainChar(c)
    ensures IsLetter(ToUpper(c)) == IsLetter(c)
    ensures (ToUpper(c) == '@') == (c == '@') && (ToUpper(c) == '.') == (c == '.')
  {
  }

  /** A decomposition of `s` is a decomposition of its upper-cased form, and back. */
  lemma UpperKeepsDecomposition(s: string, at: int, dot: int)
    ensures Decomposes(s, at, dot) <==> Decomposes(UpperCase(s), at, dot)
  {
    var u := UpperCase(s);
    forall k | 0 <= k < |s|
      ensures IsLocalChar(u[k]) == IsLocalChar(s[k]) && IsDomainChar(u[k]) == IsDomainChar(s[k])
      ensures IsLetter(u[k]) == IsLetter(s[k])
      ensures (u[k] == '@') == (s[k] == '@') && (u[k] == '.') == (s[k] == '.')
    {
      UpperKeepsClasses(s[k]);
    }
    if 0 < at < dot < |s| - 2 && at + 1 < dot {
      assert AllLocal(s[..at]) == AllLocal(u[..at]) by {
        assert forall k :: 0 <= k < at ==> s[..at][k] == s[k] && u[..at][k] == u[k];
      }
      assert AllDomain(s[at + 1..dot]) == AllDomain(u[at + 1..dot]) by {
        assert forall j :: at < j < dot ==> s[at + 1..dot][j - at - 1] == s[j] && u[at + 1..dot][j - at - 1] == u[j];
      }
      assert AllLetters(s[dot + 1..]) == AllLetters(u[dot + 1..]) by {
        assert forall j :: dot < j < |s| ==> s[dot + 1..][j - dot - 1] == s[j] && u[dot + 1..][j - dot - 1] == u[j];
      }
    }
  }

  /** The pattern ignores case: an address matches exactly when its upper-cased form does. */
  lemma EmailIgnoresCase(s: string)
    ensures EmailMatches(s) <==> EmailMatches(UpperCase(s))
  {
    EmailMatchesIsPattern(s);
    EmailMatchesIsPattern(UpperCase(s));
    if EmailPattern(s) {
      var at, dot :| Decomposes(s, at, dot);
      UpperKeepsDecomposition(s, at, dot);
    }
    if EmailPattern(UpperCase(s)) {
      var at, dot :| Decomposes(UpperCase(s), at, dot);
      UpperKeepsDecomposition(s, at, dot);
    }
  }

  /** The first failing rule of one field: required, then minimum length, then pattern. */
  function FieldError(form: Form, f: Field): (m: Option<string>)
    ensures f == Username ==> (m.Some? <==> form.username == "") && (m.Some? ==> m.value == UsernameRequired)
    ensures f == Cellulare ==> (m.Some? <==> form.cellulare == "") && (m.Some? ==> m.value == CellulareRequired)
    ensures f == Instagram ==> (m.Some? <==> form.instagram == "") && (m.Some? ==> m.value == InstagramRequired)
    ensures f == Email ==> ((m.Some? <==> !EmailMatches(form.email))
      && (m.Some? ==> m.value == if form.email == "" then EmailRequired else EmailInvalid))
    ensures f == Password ==> ((m.Some? <==> |form.password| < MinPasswordLength)
      && (m.Some? ==> m.value == if form.password == "" then PasswordRequired else PasswordTooShort))
  {
    match f
    case Username => if form.username == "" then Some(UsernameRequired) else None
    case Email =>
      if form.email == "" then Some(EmailRequired)
      else if !EmailMatches(form.email) then Some(EmailInvalid)
      else None
    case Cellulare => if form.cellulare == "" then Some(CellulareRequired) else None
    case Instagram => if form.instagram == "" then Some(InstagramRequired) else None
    case Password =>
      if form.password == "" then Some(PasswordRequired)
      else if |form.password| < MinPasswordLength then Some(PasswordTooShort)
      else None
  }

  const Fields: set<Field> := {Username, Email, Cellulare, Instagram, Password}

  /** The form's error map: one message for each field whose rules fail. */
  function Validate(form: Form): (errors: map<Field, string>)
    ensures forall f :: f in errors <==> FieldError(form, f).Some?
    ensures forall f :: f in errors ==> errors[f] == FieldError(form, f).value
  {
    map f | f in Fields && FieldError(form, f).Some? :: FieldError(form, f).value
  }

  /** The user metadata sent with the sign-up; the full name repeats the username. */
  datatype Metadata = Metadata(username: string, fullName: string, phone: string, instagram: string)

  datatype SignUpRequest = SignUpRequest(email: string, password: string, metadata: Metadata)

  /** The `profiles` row written after a sign-up that returns a user. */
  datatype ProfileRow = ProfileRow(id: string, username: string, fullName: string, email: string, phone: string, instagram: string)

  /**
   The result of pressing "Registrati": the field errors, the sign-up error
   message, or the request sent with the profile row written (when the sign-up
   returned a user) and the page navigated to.
   */
  datatype SubmitOutcome =
    | Invalid(errors: map<Field, string>)
    | AuthFailed(request: SignUpRequest, message: string)
    | Registered(request: SignUpRequest, profile: Option<ProfileRow>, next: string)

  function RequestFor(form: Form): (r: SignUpRequest)
    ensures r.email == form.email && r.password == form.password
    ensures r.metadata.username == form.username && r.metadata.fullName == form.username
    ensures r.metadata.phone == form.cellulare && r.metadata.instagram == form.instagram
  {
    SignUpRequest(form.email, form.password, Metadata(form.username, form.username, form.cellulare, form.instagram))
  }

  function ProfileFor(id: string, form: Form): (row: ProfileRow)
    ensures row.id == id && row.username == form.username && row.fullName == form.username
    ensures row.email == form.email && row.phone == form.cellulare && row.instagram == form.instagram
  {
    ProfileRow(id, form.username, form.username, form.email, form.cellulare, form.instagram)
  }

  /**
   Submission: nothing is sent while a field is invalid; the sign-up answer is
   a parameter (an error message, or the new user's id when one is returned).
   A failure to write the profile row is ignored.
   */
  function Submit(form: Form, signUp: Result<Option<string>, string>): (o: SubmitOutcome)
    ensures o.Invalid? <==> |Validate(form)| > 0
    ensures o.Invalid? ==> o.errors == Validate(form)
    ensures o.AuthFailed? <==> |Validate(form)| == 0 && signUp.Err?
    ensures o.AuthFailed? ==> o.request == RequestFor(form) && o.message == signUp.error
    ensures o.Registered? ==> (o.request == RequestFor(form) && o.next == "/login"
      && (o.profile.Some? <==> signUp.Ok? && signUp.value.Some?))
    ensures o.Registered? && o.profile.Some? ==> o.profile.value == ProfileFor(signUp.value.value, form)
  {
    var errors := Validate(form);
    if |errors| > 0 then Invalid(errors)
    else
      match signUp
      case Err(message) => AuthFailed(RequestFor(form), message)
      case Ok(None) => Registered(RequestFor(form), None, "/login")
      case Ok(Some(id)) => Registered(RequestFor(form), Some(ProfileFor(id, form)), "/login")
  }

  /** A form is accepted exactly when every required field is filled, the e-mail matches and the password is long enough. */
  lemma AcceptedForms(form: Form)
    ensures |Validate(form)| == 0 <==>
      form.username != "" && form.cellulare != "" && form.instagram != ""
      && EmailMatches(form.email) && |form.password| >= MinPasswordLength
  {
    var errors := Validate(form);
    if |errors| == 0 {
      assert errors.Keys == {};
      assert FieldError(form, Username).None? && FieldError(form, Email).None? && FieldError(form, Cellulare).None?;
      assert FieldError(form, Instagram).None? && FieldError(form, Password).None?;
    } else {
      var f :| f in errors;
      assert FieldError(form, f).Some?;
    }
  }

  /** The name shown for a new account is its username, in the metadata and in the profile row alike. */
  lemma FullNameIsUsername(form: Form, id: string)
    requires |Validate(form)| == 0
    ensures match Submit(form, Ok(Some(id)))
      case Registered(req, Some(row), _) => req.metadata.fullName == form.username && row.fullName == form.username
      case _ => false
  {
  }

  /** "mario@esempio.com" is accepted. */
  lemma EmailExampleAccepted()
    ensures EmailMatches("mario@esempio.com")
  {
    var s := "mario@esempio.com";
    assert s[..5] == "mario" && s[6..13] == "esempio" && s[14..] == "com";
    assert Decomposes(s, 5, 13);
    PatternSplit(s, 5, 13);
  }

  /** "mario.rossi" has no '@' and is rejected. */
  lemma EmailExampleNoAt()
    ensures !EmailMatches("mario.rossi")
  {
    var s := "mario.rossi";
    assert forall k :: 0 <= k < |s| ==> s[k] != '@';
    assert '@' !in s;
  }

  /** "a@b.c" has a one-letter top-level label and is rejected. */
  lemma EmailExampleShortLabel()
    ensures !EmailMatches("a@b.c")
  {
    var s := "a@b.c";
    EmailMatchesIsPattern(s);
    forall at, dot | 0 <= at < |s| && 0 <= dot < |s|
      ensures !Decomposes(s, at, dot)
    {
    }
  }
}

=== FILE: routes.dfy ===
/**
 The route table and its two guards, and the session the guards read once the
 first authentication check has settled.
 */
module Routes {
  import opened Wrappers

  /** What the guards read from the authentication context. */
  datatype Session = Session(loading: bool, user: Option<string>, role: Option<string>)

  datatype Page = LoginPage | RegisterPage | DashboardPage | BookingPage | AdminPage

  /** What a path renders: the loading screen, a redirect, a page, or nothing for an unknown path. */
  datatype Outcome = Loading | Redirect(to: string) | Show(page: Page) | Blank

  const AdminRole: string := "admin"
  const UserRole: string := "user"

  /** The guard of the signed-in pages. */
  function Protected(s: Session, page: Page): (o: Outcome)
    ensures o == Loading <==> s.loading
    ensures o == Show(page) <==> !s.loading && s.user.Some?
    ensures o == Redirect("/login") <==> !s.loading && s.user.None?
  {
    if s.loading then Loading
    else if s.user.None? then Redirect("/login")
    else Show(page)
  }

  /** The guard of the administrator's page: anyone else is sent to the dashboard. */
  function AdminOnly(s: Session, page: Page): (o: Outcome)
    ensures o == Loading <==> s.loading
    ensures o == Show(page) <==> !s.loading && s.user.Some? && s.role == Some(AdminRole)
    ensures o == Redirect("/dashboard") <==> !s.loading && (s.user.None? || s.role != Some(AdminRole))
  {
    if s.loading then Loading
    else if s.user.None? || s.role != Some(AdminRole) then Redirect("/dashboard")
    else Show(page)
  }

  /** The paths the route table declares. */
  const Paths: set<string> := {"/", "/login", "/register", "/dashboard", "/booking", "/admin"}

  /**
   The route table: the root always redirects to the dashboard, the two forms
   are open to everyone, the signed-in pages sit behind their guards, and an
   undeclared path renders nothing.
   */
  function Route(path: string, s: Session): (o: Outcome)
    ensures path == "/" ==> o == Redirect("/dashboard")
    ensures path == "/login" ==> o == Show(LoginPage)
    ensures path == "/register" ==> o == Show(RegisterPage)
    ensures path == "/dashboard" ==> o == Protected(s, DashboardPage)
    ensures path == "/booking" ==> o == Protected(s, BookingPage)
    ensures path == "/admin" ==> o == AdminOnly(s, AdminPage)
    ensures o.Blank? <==> path !in Paths
    ensures o.Show? && o.page == AdminPage ==> path == "/admin" && s.role == Some(AdminRole)
    ensures o.Show? && o.page in {DashboardPage, BookingPage} ==> s.user.Some?
    ensures o == Loading ==> s.loading
  {
    if path == "/" then Redirect("/dashboard")
    else if path == "/login" then Show(LoginPage)
    else if path == "/register" then Show(RegisterPage)
    else if path == "/dashboard" then Protected(s, DashboardPage)
    else if path == "/booking" then Protected(s, BookingPage)
    else if path == "/admin" then AdminOnly(s, AdminPage)
    else Blank
  }

  /** Follows at most `hops` redirects from `path`. */
  function Follow(path: string, s: Session, hops: nat): Outcome
    decreases hops
  {
    match Route(path, s)
    case Redirect(to) => if hops == 0 then Redirect(to) else Follow(to, s, hops - 1)
    case o => o
  }

  /** Every redirect target is itself a route. */
  lemma RedirectTargetsAreRoutes(path: string, s: Session)
    ensures Route(path, s).Redirect? ==> Route(path, s).to in {"/dashboard", "/login"}
  {
  }

  /** The administrator's page renders exactly for a settled session of a user whose role is admin. */
  lemma AdminPageAccess(s: Session)
    ensures Route("/admin", s) == Show(AdminPage) <==> !s.loading && s.user.Some? && s.role == Some(AdminRole)
  {
  }

  /** Whoever may open the administrator's page may open every signed-in page. */
  lemma AdminReachesProtectedPages(s: Session)
    requires Route("/admin", s) == Show(AdminPage)
    ensures Route("/dashboard", s) == Show(DashboardPage) && Route("/booking", s) == Show(BookingPage)
  {
  }

  /**
   Redirects never chain more than twice, so three hops always settle; a
   settled session ends on a page and never on another redirect.
   */
  lemma {:induction false} RedirectsSettle(path: string, s: Session)
    ensures !Follow(path, s, 2).Redirect?
    ensures !s.loading && path in {"/", "/dashboard", "/booking", "/admin"} ==>
      Follow(path, s, 2).Show?
  {
    var o := Route(path, s);
    if o.Redirect? {
      assert o.to == "/dashboard" || o.to == "/login";
      var o2 := Route(o.to, s);
      assert Follow(path, s, 2) == Follow(o.to, s, 1);
      if o2.Redirect? {
        assert o2.to == "/login";
        assert Follow(o.to, s, 1) == Follow("/login", s, 0);
      }
    }
  }

  /** Where "/admin" ends for a settled session: the page, the dashboard, or the login form. */
  lemma AdminLanding(s: Session)
    requires !s.loading
    ensures Follow("/admin", s, 2) ==
      if s.user.None? then Show(LoginPage)
      else if s.role == Some(AdminRole) then Show(AdminPage)
      else Show(DashboardPage)
  {
    if s.user.None? {
      assert Follow("/admin", s, 2) == Follow("/dashboard", s, 1);
      assert Follow("/dashboard", s, 1) == Follow("/login", s, 0);
    } else if s.role != Some(AdminRole) {
      assert Follow("/admin", s, 2) == Follow("/dashboard", s, 1);
    }
  }

  /**
   The role once the profile lookup answers: the stored role when it is
   present and non-empty, "user" when it is missing, empty or the lookup fails.
   */
  function RoleFrom(lookup: Result<Option<string>, string>): (r: string)
    ensures r == AdminRole <==> lookup == Ok(Some(AdminRole))
    ensures r == UserRole <==> (lookup.Err? || lookup.value.None? || lookup.value.value in {"", UserRole})
  {
    match lookup
    case Err(_) => UserRole
    case Ok(None) => UserRole
    case Ok(Some(role)) => if role == "" then UserRole else role
  }

  /**
   The session after the first check: no session means no user and no role;
   a session means its user, with the role read from the profile; a failed
   check leaves the initial empty context with loading cleared.
   */
  function SettledSession(check: Result<Option<string>, string>, lookup: Result<Option<string>, string>): (s: Session)
    ensures !s.loading
    ensures s.user.Some? <==> check.Ok? && check.value.Some?
    ensures s.role.Some? <==> s.user.Some?
  {
    match check
    case Err(_) => Session(false, None, None)
    case Ok(None) => Session(false, None, None)
    case Ok(Some(user)) => Session(false, Some(user), Some(RoleFrom(lookup)))
  }

  /** The administrator's page opens after the first check exactly when the profile row says "admin". */
  lemma AdminNeedsAdminRow(check: Result<Option<string>, string>, lookup: Result<Option<string>, string>)
    ensures Route("/admin", SettledSession(check, lookup)) == Show(AdminPage)
      <==> check.Ok? && check.value.Some? && lookup == Ok(Some(AdminRole))
  {
  }
}

=== FILE: seconds.dfy ===
/**
 The slot grid at millisecond resolution. The booking page opens with the
 date `new Date()`, which carries the seconds and milliseconds of the moment
 the page was opened, and `setHours` and `setMinutes` keep them. On that
 date the query window and every candidate slot are shifted by that
 sub-minute offset. A date picked in the calendar starts at midnight, so its
 offset is zero. Here every instant, a row's times included, is a whole
 number of milliseconds.
 */
module Seconds {
  import opened Wrappers
  import opened Clock
  import opened Domain
  import opened Slots

  /** Minute `minute` of module Clock, `off` milliseconds later (60 000 ms a minute). */
  function Ms(minute: int, off: int): int {
    minute * 60000 + off
  }

  /** A row whose times are minutes of module Clock, with those times in milliseconds. */
  function InMs(b: Booking): Booking {
    b.(start := Ms(b.start, 0), end := Ms(b.end, 0))
  }

  /** Every row of `table` in milliseconds, in the same order. */
  function AllInMs(table: seq<Booking>): (r: seq<Booking>)
    ensures |r| == |table|
    ensures forall k :: 0 <= k < |table| ==> r[k] == InMs(table[k])
  {
    if |table| == 0 then []
    else
      var rest := AllInMs(table[1..]);
      assert forall k :: 1 <= k < |table| ==> ([InMs(table[0])] + rest)[k] == rest[k - 1];
      [InMs(table[0])] + rest
  }

  /** The query's filters on a date that carries `off` milliseconds past the minute. */
  predicate QueryMatchesAt(b: Booking, day: int, off: int) {
    b.status != Cancelled && b.start >= Ms(DayStart(day), off) && b.end <= Ms(DayEnd(day), off)
  }

  /** The rows of `table` that query returns, in table order. */
  function DayBookingsAt(table: seq<Booking>, day: int, off: int): (r: seq<Booking>)
    ensures forall b :: b in r <==> b in table && QueryMatchesAt(b, day, off)
  {
    if |table| == 0 then []
    else
      var rest := DayBookingsAt(table[1..], day, off);
      assert forall b :: b in table <==> b == table[0] || b in table[1..];
      if QueryMatchesAt(table[0], day, off) then [table[0]] + rest else rest
  }

  /** The query's rows, or nothing when it failed. */
  function FetchedAt(response: Option<seq<Booking>>, day: int, off: int): (r: seq<Booking>)
    ensures response.None? ==> r == []
    ensures response.Some? ==> forall b :: b in r <==> b in response.value && QueryMatchesAt(b, day, off)
  {
    match response
    case None => []
    case Some(table) => DayBookingsAt(table, day, off)
  }

  /** The query over a single stored row. */
  lemma FetchedOneRow(b: Booking, day: int, off: int)
    ensures FetchedAt(Some([b]), day, off) == if QueryMatchesAt(b, day, off) then [b] else []
  {
    assert [b][1..] == [];
    assert DayBookingsAt([], day, off) == [];
    if QueryMatchesAt(b, day, off) {
      assert DayBookingsAt([b], day, off) == [b] + DayBookingsAt([], day, off);
    }
  }

  /** `isPast` against a clock read in milliseconds. */
  predicate IsPastAt(day: int, start: int, now: int) {
    DayOf(now / 60000) == day && start < now
  }

  /**
   The entry for candidate `i`: `format` drops the seconds, so the label is
   the whole-minute one, while the slot itself begins `off` ms later.
   */
  function MakeSlotAt(day: int, duration: int, existing: seq<Booking>, now: int, off: int, i: nat): Slot
    requires i < 18
  {
    var start := Ms(SlotStart(day, i), off);
    Slot(Label(WorkStart + SlotStep * i),
      !Conflicts(start, Ms(SlotStart(day, i) + duration, off), existing) && !IsPastAt(day, start, now))
  }

  /** Shifting two minutes by the same offset keeps their order. */
  lemma ShiftKeepsOrder(a: int, b: int, off: int)
    ensures Ms(a, off) < Ms(b, off) <==> a < b
  {
  }

  /** The generator loop from candidate `i` onwards, comparing shifted instants. */
  function SlotsFromAt(day: int, duration: int, existing: seq<Booking>, now: int, off: int, i: nat): (r: seq<Slot>)
    ensures |r| == if i >= SlotCount(duration) then 0 else SlotCount(duration) - i
    ensures forall k :: 0 <= k < |r| ==> i + k < 18 && r[k] == MakeSlotAt(day, duration, existing, now, off, i + k)
    decreases 18 - i
  {
    var current := Ms(SlotStart(day, i), off);
    var dayEnd := Ms(DayEnd(day), off);
    assert current < dayEnd && Ms(SlotStart(day, i) + duration, off) <= dayEnd <==> i < SlotCount(duration) by {
      SlotCountFits(day, duration, i);
      ShiftKeepsOrder(SlotStart(day, i), DayEnd(day), off);
      ShiftKeepsOrder(DayEnd(day), SlotStart(day, i) + duration, off);
    }
    if !(current < dayEnd) then []
    else if Ms(SlotStart(day, i) + duration, off) > dayEnd then []
    else
      var rest := SlotsFromAt(day, duration, existing, now, off, i + 1);
      assert forall k :: 0 < k <= |rest| ==> ([MakeSlotAt(day, duration, existing, now, off, i)] + rest)[k] == rest[k - 1];
      [MakeSlotAt(day, duration, existing, now, off, i)] + rest
  }

  /**
   `fetchSlots` on a date carrying `off` milliseconds past the minute: the
   count and the labels are those of the whole-minute grid, and availability
   compares the shifted slot against the rows of the shifted query.
   */
  function FetchSlotsAt(day: int, duration: int, response: Option<seq<Booking>>, now: int, off: int): (slots: seq<Slot>)
    ensures |slots| == SlotCount(duration)
    ensures forall i :: 0 <= i < |slots| ==> slots[i].time == Label(WorkStart + SlotStep * i)
    ensures forall i :: 0 <= i < |slots| ==>
      (slots[i].available <==>
        !Conflicts(Ms(SlotStart(day, i), off), Ms(SlotStart(day, i) + duration, off), FetchedAt(response, day, off))
        && !IsPastAt(day, Ms(SlotStart(day, i), off), now))
  {
    SlotsFromAt(day, duration, FetchedAt(response, day, off), now, off, 0)
  }

  /** The whole-minute query commutes with converting the rows to milliseconds. */
  lemma {:induction false} DayBookingsInMs(table: seq<Booking>, day: int)
    ensures DayBookingsAt(AllInMs(table), day, 0) == AllInMs(DayBookings(table, day))
    decreases |table|
  {
    if |table| > 0 {
      assert AllInMs(table)[1..] == AllInMs(table[1..]);
      assert QueryMatchesAt(InMs(table[0]), day, 0) <==> QueryMatches(table[0], day);
      DayBookingsInMs(table[1..], day);
    }
  }

  /** Overlap is unchanged by converting a slot and the rows to milliseconds. */
  lemma ConflictsInMs(start: int, end: int, rows: seq<Booking>)
    ensures Conflicts(Ms(start, 0), Ms(end, 0), AllInMs(rows)) <==> Conflicts(start, end, rows)
  {
    var ms := AllInMs(rows);
    if Conflicts(start, end, rows) {
      var k :| 0 <= k < |rows| && Overlaps(start, end, rows[k]);
      assert Overlaps(Ms(start, 0), Ms(end, 0), ms[k]);
    }
    if Conflicts(Ms(start, 0), Ms(end, 0), ms) {
      var k :| 0 <= k < |ms| && Overlaps(Ms(start, 0), Ms(end, 0), ms[k]);
      assert Overlaps(start, end, rows[k]);
    }
  }

  /** The response of the query, its rows in milliseconds. */
  function ResponseInMs(response: Option<seq<Booking>>): Option<seq<Booking>> {
    match response
    case None => None
    case Some(table) => Some(AllInMs(table))
  }

  /** With no offset, the query's response commutes with converting it to milliseconds. */
  lemma FetchedInMs(response: Option<seq<Booking>>, day: int)
    ensures FetchedAt(ResponseInMs(response), day, 0) == AllInMs(Fetched(response, day))
  {
    if response.Some? {
      DayBookingsInMs(response.value, day);
    }
  }

  /** `isPast` is unchanged by reading a whole-minute clock and slot in milliseconds. */
  lemma IsPastInMs(day: int, start: int, now: int)
    ensures IsPastAt(day, Ms(start, 0), Ms(now, 0)) <==> IsPast(day, start, now)
  {
    assert Ms(now, 0) / 60000 == now;
  }

  /**
   With the offset cleared, and rows and clock on whole minutes, the
   millisecond grid is the grid of module Slots, slot for slot: that grid is
   the page on a date that starts on the minute.
   */
  lemma WholeMinuteGridAgrees(day: int, duration: int, response: Option<seq<Booking>>, now: int)
    ensures FetchSlotsAt(day, duration, ResponseInMs(response), Ms(now, 0), 0) == FetchSlots(day, duration, response, now)
  {
    var a := FetchSlotsAt(day, duration, ResponseInMs(response), Ms(now, 0), 0);
    var b := FetchSlots(day, duration, response, now);
    forall i | 0 <= i < |a|
      ensures a[i] == b[i]
    {
      SlotInMsAgrees(day, duration, response, now, i);
    }
  }

  /** One slot of the two grids of `WholeMinuteGridAgrees`. */
  lemma SlotInMsAgrees(day: int, duration: int, response: Option<seq<Booking>>, now: int, i: nat)
    requires i < SlotCount(duration)
    ensures FetchSlotsAt(day, duration, ResponseInMs(response), Ms(now, 0), 0)[i] == FetchSlots(day, duration, response, now)[i]
  {
    FetchedInMs(response, day);
    ConflictsInMs(SlotStart(day, i), SlotStart(day, i) + duration, Fetched(response, day));
    IsPastInMs(day, SlotStart(day, i), now);
  }

  /** A pending row from 09:00:00 to 10:00:00 of `day`, as a whole-minute date stores it. */
  function NineOClockRow(day: int): Booking {
    InMs(Booking("b1", "u1", "p60", At(day, 9 * 60), At(day, 10 * 60), Pending))
  }

  /**
   On a date carrying any positive sub-minute offset, the query window starts
   after 09:00:00, so the stored 09:00:00-10:00:00 row is not returned and the
   one-hour 09:00 slot is offered although it overlaps that row: a second
   booking for the same hour. With the offset cleared the row blocks the slot.
   */
  lemma OffsetHidesNineOClockRow(day: int, now: int, off: int)
    requires 0 < off < 60000
    requires now < Ms(SlotStart(day, 0), off)
    ensures var slots := FetchSlotsAt(day, 60, Some([NineOClockRow(day)]), now, off);
      && slots[0].time == "09:00"
      && slots[0].available
      && Overlaps(Ms(SlotStart(day, 0), off), Ms(SlotStart(day, 0) + 60, off), NineOClockRow(day))
      && !FetchSlotsAt(day, 60, Some([NineOClockRow(day)]), now, 0)[0].available
  {
    var row := NineOClockRow(day);
    WorkStartLabel();
    assert DayStart(day) == At(day, 9 * 60) && SlotStart(day, 0) == DayStart(day);
    assert row.start == Ms(DayStart(day), 0) && row.end <= Ms(DayEnd(day), 0);
    assert !QueryMatchesAt(row, day, off);
    FetchedOneRow(row, day, off);
    assert QueryMatchesAt(row, day, 0);
    FetchedOneRow(row, day, 0);
  }

  /**
   On a date carrying a positive offset, the one-hour slot 09:30 ends at
   10:30 plus the offset, so a stored row from 10:30:00 to 11:30:00, which
   only touches that slot on the whole-minute grid, blocks it.
   */
  lemma OffsetMakesTouchingRowConflict(day: int, now: int, off: int)
    requires 0 < off < 60000
    ensures var b := Booking("b1", "u1", "p60", At(day, 10 * 60 + 30), At(day, 11 * 60 + 30), Pending);
      && !Overlaps(SlotStart(day, 1), SlotStart(day, 1) + 60, b)
      && !FetchSlotsAt(day, 60, Some([InMs(b)]), now, off)[1].available
  {
    var b := Booking("b1", "u1", "p60", At(day, 10 * 60 + 30), At(day, 11 * 60 + 30), Pending);
    var row := InMs(b);
    assert DayStart(day) < b.start && b.end < DayEnd(day);
    assert Ms(DayStart(day), 0) < row.start && row.end < Ms(DayEnd(day), 0);
    assert QueryMatchesAt(row, day, off);
    FetchedOneRow(row, day, off);
    assert Overlaps(Ms(SlotStart(day, 1), off), Ms(SlotStart(day, 1) + 60, off), row);
  }
}

=== FILE: slots.dfy ===
/**
 The slot generator of the booking page: for one day and one package
 duration, the 30-minute grid of start times inside 09:00-18:00, each marked
 available or not against the bookings already stored for that day.
 */
module Slots {
  import opened Wrappers
  import opened Clock
  import opened Domain
  import opened Text

  /** One entry of the time grid: its `HH:mm` label and whether it can be picked. */
  datatype Slot = Slot(time: string, available: bool)

  function DayStart(day: int): int {
    At(day, WorkStart)
  }

  function DayEnd(day: int): int {
    At(day, WorkEnd)
  }

  /** Start of the `i`-th candidate slot of `day`. */
  function SlotStart(day: int, i: int): int {
    DayStart(day) + SlotStep * i
  }

  /**
   The filters of the bookings query: not cancelled, starting no earlier than
   09:00 and ending no later than 18:00 of the chosen day.
   */
  predicate QueryMatches(b: Booking, day: int) {
    b.status != Cancelled && b.start >= DayStart(day) && b.end <= DayEnd(day)
  }

  /** The rows of `table` the bookings query returns, in table order. */
  function DayBookings(table: seq<Booking>, day: int): (r: seq<Booking>)
    ensures forall b :: b in r <==> b in table && QueryMatches(b, day)
    ensures |r| <= |table|
  {
    if |table| == 0 then []
    else
      var rest := DayBookings(table[1..], day);
      assert forall b :: b in table <==> b == table[0] || b in table[1..];
      if QueryMatches(table[0], day) then [table[0]] + rest else rest
  }

  /** The query is a filter: it distributes over a split of the table. */
  lemma {:induction false} DayBookingsAppend(t1: seq<Booking>, t2: seq<Booking>, day: int)
    ensures DayBookings(t1 + t2, day) == DayBookings(t1, day) + DayBookings(t2, day)
    decreases |t1|
  {
    if |t1| > 0 {
      assert (t1 + t2)[1..] == t1[1..] + t2;
      DayBookingsAppend(t1[1..], t2, day);
    } else {
      assert t1 + t2 == t2;
    }
  }

  /**
   What the generator compares against: the query's rows, or nothing when the
   query failed (`existingBookings?.some(...)` is then undefined, so no slot
   conflicts).
   */
  function Fetched(response: Option<seq<Booking>>, day: int): (r: seq<Booking>)
    ensures response.None? ==> r == []
    ensures response.Some? ==> forall b :: b in r <==> b in response.value && QueryMatches(b, day)
  {
    match response
    case None => []
    case Some(table) => DayBookings(table, day)
  }

  /** Half-open overlap of the slot [start, end) with booking `b`. */
  predicate Overlaps(start: int, end: int, b: Booking) {
    start < b.end && end > b.start
  }

  /** `existingBookings.some(...)`: the slot overlaps at least one booking. */
  function Conflicts(start: int, end: int, bookings: seq<Booking>): (r: bool)
    ensures r <==> exists i :: 0 <= i < |bookings| && Overlaps(start, end, bookings[i])
  {
    if |bookings| == 0 then false
    else
      var rest := Conflicts(start, end, bookings[1..]);
      assert forall i :: 1 <= i < |bookings| ==> bookings[1..][i - 1] == bookings[i];
      Overlaps(start, end, bookings[0]) || rest
  }

  /** The chosen day is today and the slot has already begun. */
  predicate IsPast(day: int, start: int, now: int) {
    DayOf(now) == day && start < now
  }

  /** The availability flag of a slot of `duration` minutes starting at `start`. */
  predicate Available(day: int, start: int, duration: int, existing: seq<Booking>, now: int) {
    !Conflicts(start, start + duration, existing) && !IsPast(day, start, now)
  }

  /**
   Number of slots the generator emits: candidates are taken while they start
   before 18:00 and stop at the first one that would end after 18:00.
   */
  function SlotCount(duration: int): (n: nat)
    ensures n <= 18
    ensures duration > WorkEnd - WorkStart ==> n == 0
    ensures 0 < duration <= WorkEnd - WorkStart ==> n == (WorkEnd - WorkStart - duration) / SlotStep + 1
    ensures duration == WorkEnd - WorkStart ==> n == 1
    ensures duration <= 0 ==> n == 18
  {
    if duration > WorkEnd - WorkStart then 0
    else if (WorkEnd - WorkStart - duration) / SlotStep + 1 < 18 then (WorkEnd - WorkStart - duration) / SlotStep + 1
    else 18
  }

  /** The `i`-th candidate fits the window exactly when `i` is below the count. */
  lemma SlotCountFits(day: int, duration: int, i: nat)
    ensures i < SlotCount(duration) <==> SlotStart(day, i) < DayEnd(day) && SlotStart(day, i) + duration <= DayEnd(day)
  {
  }

  /** Every counted candidate lies in the day's window, and the first one past the count overruns it. */
  lemma SlotWindows(day: int, duration: int)
    ensures forall i :: 0 <= i < SlotCount(duration) ==>
      DayStart(day) <= SlotStart(day, i) < DayEnd(day) && SlotStart(day, i) + duration <= DayEnd(day)
    ensures SlotCount(duration) < 18 ==> SlotStart(day, SlotCount(duration)) + duration > DayEnd(day)
  {
    forall i | 0 <= i < SlotCount(duration)
      ensures DayStart(day) <= SlotStart(day, i) < DayEnd(day) && SlotStart(day, i) + duration <= DayEnd(day)
    {
      SlotCountFits(day, duration, i);
    }
    SlotCountFits(day, duration, SlotCount(duration));
  }

  /** The entry the generator emits for candidate `i`. */
  function MakeSlot(day: int, duration: int, existing: seq<Booking>, now: int, i: nat): (s: Slot)
    requires i < 18
  {
    Slot(Label(WorkStart + SlotStep * i), Available(day, SlotStart(day, i), duration, existing, now))
  }

  /** The generator loop from candidate `i` onwards. */
  function SlotsFrom(day: int, duration: int, existing: seq<Booking>, now: int, i: nat): (r: seq<Slot>)
    ensures |r| == if i >= SlotCount(duration) then 0 else SlotCount(duration) - i
    ensures forall k :: 0 <= k < |r| ==> i + k < 18 && r[k] == MakeSlot(day, duration, existing, now, i + k)
    decreases 18 - i
  {
    var current := SlotStart(day, i);
    SlotCountFits(day, duration, i);
    if !(current < DayEnd(day)) then []
    else if current + duration > DayEnd(day) then []
    else
      var rest := SlotsFrom(day, duration, existing, now, i + 1);
      assert forall k :: 0 < k <= |rest| ==> ([MakeSlot(day, duration, existing, now, i)] + rest)[k] == rest[k - 1];
      [MakeSlot(day, duration, existing, now, i)] + rest
  }

  /**
   `fetchSlots`: the grid for `day` and a package of `duration` minutes, given
   the response of the bookings query and the current instant.
   */
  function FetchSlots(day: int, duration: int, response: Option<seq<Booking>>, now: int): (slots: seq<Slot>)
    ensures |slots| == SlotCount(duration)
    ensures forall i :: 0 <= i < |slots| ==>
      DayStart(day) <= SlotStart(day, i) < DayEnd(day) && SlotStart(day, i) + duration <= DayEnd(day)
    ensures |slots| < 18 ==> SlotStart(day, |slots|) + duration > DayEnd(day)
    ensures forall i :: 0 <= i < |slots| ==> slots[i].time == Label(WorkStart + SlotStep * i)
    ensures forall i :: 0 <= i < |slots| ==>
      (slots[i].available <==>
        !Conflicts(SlotStart(day, i), SlotStart(day, i) + duration, Fetched(response, day))
        && !IsPast(day, SlotStart(day, i), now))
  {
    SlotWindows(day, duration);
    SlotsFrom(day, duration, Fetched(response, day), now, 0)
  }

  /** When the bookings read fails, every slot that has not begun is offered. */
  lemma FailedReadOffersAllButPast(day: int, duration: int, now: int, i: nat)
    requires i < SlotCount(duration)
    ensures FetchSlots(day, duration, None, now)[i].available <==> !IsPast(day, SlotStart(day, i), now)
  {
  }

  /**
   The intended guarantee of the grid: a stored row that is not cancelled and
   lies inside 09:00-18:00 blocks every slot it overlaps.
   */
  lemma WindowRowBlocks(table: seq<Booking>, b: Booking, day: int, duration: int, now: int, i: nat)
    requires b in table && QueryMatches(b, day)
    requires i < SlotCount(duration)
    requires Overlaps(SlotStart(day, i), SlotStart(day, i) + duration, b)
    ensures !FetchSlots(day, duration, Some(table), now)[i].available
  {
    var existing := Fetched(Some(table), day);
    var k :| 0 <= k < |existing| && existing[k] == b;
  }

  /** A booking that only touches a slot at either endpoint does not block it. */
  lemma TouchingDoesNotConflict(start: int, duration: int, b: Booking)
    requires b.end == start || b.start == start + duration
    ensures !Overlaps(start, start + duration, b)
  {
  }

  /**
   Only rows the query keeps affect the grid: a cancelled booking, or one that
   starts before 09:00 or ends after 18:00 of the day, changes nothing.
   */
  lemma {:induction false} IgnoredBookingIrrelevant(t1: seq<Booking>, b: Booking, t2: seq<Booking>, day: int)
    requires !QueryMatches(b, day)
    ensures Fetched(Some(t1 + [b] + t2), day) == Fetched(Some(t1 + t2), day)
  {
    assert DayBookings([b], day) == [] by {
      assert [b][1..] == [];
    }
    calc {
      DayBookings(t1 + [b] + t2, day);
    == { DayBookingsAppend(t1 + [b], t2, day); }
      DayBookings(t1 + [b], day) + DayBookings(t2, day);
    == { DayBookingsAppend(t1, [b], day); }
      DayBookings(t1, day) + DayBookings([b], day) + DayBookings(t2, day);
    ==
      DayBookings(t1, day) + DayBookings(t2, day);
    == { DayBookingsAppend(t1, t2, day); }
      DayBookings(t1 + t2, day);
    }
  }

  /**
   A stored booking from 08:30 to 09:30 overlaps the 09:00 slot, but the query
   drops it because it starts before 09:00, so the 09:00 slot is offered.
   */
  lemma StraddlingBookingIgnored(day: int, now: int)
    requires DayOf(now) < day
    ensures var b := Booking("b", "u", "p", At(day, 8 * 60 + 30), At(day, 9 * 60 + 30), Pending);
      Overlaps(SlotStart(day, 0), SlotStart(day, 0) + 60, b)
      && FetchSlots(day, 60, Some([b]), now)[0].available
  {
    var b := Booking("b", "u", "p", At(day, 8 * 60 + 30), At(day, 9 * 60 + 30), Pending);
    assert !QueryMatches(b, day);
    assert DayBookings([b], day) == [];
  }

  /** The 10:00-11:00 booking of the scenario below, kept by the query of its day. */
  lemma OneHourBookingFetched(day: int)
    ensures var b := Booking("b", "u", "p", At(day, 10 * 60), At(day, 11 * 60), Pending);
      Fetched(Some([b]), day) == [b]
  {
    var b := Booking("b", "u", "p", At(day, 10 * 60), At(day, 11 * 60), Pending);
    assert QueryMatches(b, day);
    assert DayBookings([b], day) == [b] by {
      assert [b][1..] == [];
    }
  }

  /** Against that booking alone, a one-hour slot `i` of a future day is free unless it starts at 09:30, 10:00 or 10:30. */
  lemma OneHourSlotFree(day: int, now: int, i: nat)
    requires DayOf(now) < day
    ensures var b := Booking("b", "u", "p", At(day, 10 * 60), At(day, 11 * 60), Pending);
      Available(day, SlotStart(day, i), 60, [b], now) <==> !(1 <= i <= 3)
  {
    var b := Booking("b", "u", "p", At(day, 10 * 60), At(day, 11 * 60), Pending);
    assert Conflicts(SlotStart(day, i), SlotStart(day, i) + 60, [b]) <==> Overlaps(SlotStart(day, i), SlotStart(day, i) + 60, b) by {
      assert [b][1..] == [];
    }
  }

  /**
   A future day, a 60-minute package and one booking from 10:00 to 11:00:
   17 slots from 09:00 to 17:00, of which 09:30, 10:00 and 10:30 are taken.
   */
  lemma OneHourScenario(day: int, now: int)
    requires DayOf(now) < day
    ensures var b := Booking("b", "u", "p", At(day, 10 * 60), At(day, 11 * 60), Pending);
      var slots := FetchSlots(day, 60, Some([b]), now);
      && |slots| == 17
      && slots[0].time == "09:00"
      && slots[16].time == "17:00"
      && forall i :: 0 <= i < |slots| ==> (slots[i].available <==> !(1 <= i <= 3))
  {
    var b := Booking("b", "u", "p", At(day, 10 * 60), At(day, 11 * 60), Pending);
    OneHourBookingFetched(day);
    var slots := FetchSlots(day, 60, Some([b]), now);
    forall i | 0 <= i < |slots|
      ensures slots[i].available <==> !(1 <= i <= 3)
    {
      OneHourSlotFree(day, now, i);
    }
    WorkStartLabel();
    SeventeenLabel();
  }
}

=== FILE: text.dfy ===
/**
 Character classes and string operations the front-end relies on:
 `String.prototype.includes`, `split(':')`, `Number(...)` on digit strings,
 two-digit zero padding, first and last occurrence of a character, and ASCII
 upper-casing.
 */
module Text {
  import opened Wrappers

  /** A missing or empty string: what JavaScript treats as false in a condition. */
  predicate Falsy(s: Option<string>) {
    s.None? || s.value == ""
  }

  predicate IsDigit(c: char) {
    '0' <= c <= '9'
  }

  predicate IsUpperLetter(c: char) {
    'A' <= c <= 'Z'
  }

  predicate IsLowerLetter(c: char) {
    'a' <= c <= 'z'
  }

  /** An ASCII letter of either case. */
  predicate IsLetter(c: char) {
    IsUpperLetter(c) || IsLowerLetter(c)
  }

  predicate AllDigits(s: string) {
    forall i :: 0 <= i < |s| ==> IsDigit(s[i])
  }

  function DigitValue(c: char): (d: nat)
    requires IsDigit(c)
    ensures d < 10
  {
    c as int - '0' as int
  }

  function DigitChar(d: nat): (c: char)
    requires d < 10
    ensures IsDigit(c) && DigitValue(c) == d
  {
    ('0' as int + d) as char
  }

  /** Decimal value of a digit string, most significant digit first; "" is 0. */
  function DecimalValue(s: string): nat
    requires AllDigits(s)
    decreases |s|
  {
    if |s| == 0 then 0 else DecimalValue(s[..|s| - 1]) * 10 + DigitValue(s[|s| - 1])
  }

  /**
   `Number(s)` for the strings this model admits: a string of decimal digits
   (the empty string included, which JavaScript converts to 0). Every other
   string is treated as NaN.
   */
  function NumberOf(s: string): Option<nat> {
    if AllDigits(s) then Some(DecimalValue(s)) else None
  }

  /** `n` written with exactly two digits, zero padded (date-fns `HH` / `mm`). */
  function TwoDigits(n: nat): (r: string)
    requires n < 100
    ensures |r| == 2 && AllDigits(r)
    ensures NumberOf(r) == Some(n)
  {
    var r := [DigitChar(n / 10), DigitChar(n % 10)];
    assert r[..1] == [DigitChar(n / 10)];
    assert r[..1][..0] == [];
    assert DecimalValue(r[..1]) == n / 10;
    assert DecimalValue(r) == (n / 10) * 10 + n % 10;
    r
  }

  /** `sub` occurs in `s` starting at index `i`. */
  predicate OccursAt(s: string, sub: string, i: int) {
    0 <= i && i + |sub| <= |s| && s[i..i + |sub|] == sub
  }

  /** `s.includes(sub)`: some window of `s` equals `sub`. */
  function Contains(s: string, sub: string): (r: bool)
    ensures r <==> exists i :: OccursAt(s, sub, i)
    decreases |s|
  {
    if |sub| <= |s| && s[..|sub|] == sub then
      assert OccursAt(s, sub, 0);
      true
    else if |s| == 0 then
      assert forall i :: !OccursAt(s, sub, i);
      false
    else
      var rest := Contains(s[1..], sub);
      assert forall i :: OccursAt(s[1..], sub, i) <==> OccursAt(s, sub, i + 1) by {
        forall i ensures OccursAt(s[1..], sub, i) <==> OccursAt(s, sub, i + 1) {
          if 0 <= i && i + |sub| <= |s| - 1 {
            assert s[1..][i..i + |sub|] == s[i + 1..i + 1 + |sub|];
          }
        }
      }
      assert !OccursAt(s, sub, 0);
      assert forall i :: OccursAt(s, sub, i) ==> OccursAt(s[1..], sub, i - 1);
      rest
  }

  /** The parts of `s` between occurrences of `sep`, as `s.split(sep)` returns them. */
  function SplitOn(s: string, sep: char): (parts: seq<string>)
    ensures |parts| >= 1
    ensures forall i :: 0 <= i < |parts| ==> sep !in parts[i]
    ensures Join(parts, sep) == s
    decreases |s|
  {
    if |s| == 0 then [""]
    else if s[0] == sep then
      var rest := SplitOn(s[1..], sep);
      assert Join([""] + rest, sep) == [sep] + Join(rest, sep) by {
        assert ([""] + rest)[1..] == rest;
      }
      [""] + rest
    else
      var rest := SplitOn(s[1..], sep);
      var parts := [[s[0]] + rest[0]] + rest[1..];
      assert parts[1..] == rest[1..];
      assert Join(parts, sep) == [s[0]] + Join(rest, sep);
      parts
  }

  /** `parts.join(sep)`. */
  function Join(parts: seq<string>, sep: char): string
    requires |parts| >= 1
  {
    if |parts| == 1 then parts[0] else parts[0] + [sep] + Join(parts[1..], sep)
  }

  lemma {:induction false} SplitWithoutSeparator(a: string, sep: char)
    requires sep !in a
    ensures SplitOn(a, sep) == [a]
    decreases |a|
  {
    if |a| > 0 {
      SplitWithoutSeparator(a[1..], sep);
      assert [a[0]] + a[1..] == a;
    }
  }

  lemma {:induction false} SplitAfterFirstPart(a: string, b: string, sep: char)
    requires sep !in a
    ensures SplitOn(a + [sep] + b, sep) == [a] + SplitOn(b, sep)
    decreases |a|
  {
    var s := a + [sep] + b;
    if |a| == 0 {
      assert s[1..] == b;
    } else {
      assert s[1..] == a[1..] + [sep] + b;
      SplitAfterFirstPart(a[1..], b, sep);
      assert [a[0]] + a[1..] == a;
    }
  }

  /** Splitting a join of separator-free parts gives the parts back. */
  lemma {:induction false} SplitJoinRoundTrip(parts: seq<string>, sep: char)
    requires |parts| >= 1
    requires forall i :: 0 <= i < |parts| ==> sep !in parts[i]
    ensures SplitOn(Join(parts, sep), sep) == parts
    decreases |parts|
  {
    if |parts| == 1 {
      SplitWithoutSeparator(parts[0], sep);
    } else {
      SplitJoinRoundTrip(parts[1..], sep);
      SplitAfterFirstPart(parts[0], Join(parts[1..], sep), sep);
      assert [parts[0]] + parts[1..] == parts;
    }
  }

  /** Position of the first `c` in `s`, if any. */
  function IndexOf(s: string, c: char): (r: Option<nat>)
    ensures r.None? <==> c !in s
    ensures r.Some? ==> r.value < |s| && s[r.value] == c && c !in s[..r.value]
  {
    if |s| == 0 then None
    else if s[0] == c then Some(0)
    else
      match IndexOf(s[1..], c)
      case None => None
      case Some(k) =>
        assert s[..k + 1] == [s[0]] + s[1..][..k];
        Some(k + 1)
  }

  /** Position of the last `c` in `s`, if any. */
  function LastIndexOf(s: string, c: char): (r: Option<nat>)
    ensures r.None? <==> c !in s
    ensures r.Some? ==> r.value < |s| && s[r.value] == c && c !in s[r.value + 1..]
    decreases |s|
  {
    if |s| == 0 then None
    else if s[|s| - 1] == c then Some(|s| - 1)
    else
      var init := s[..|s| - 1];
      assert s == init + [s[|s| - 1]];
      match LastIndexOf(init, c)
      case None => None
      case Some(k) =>
        assert s[k + 1..] == init[k + 1..] + [s[|s| - 1]];
        Some(k)
  }

  /** A `c` with no `c` after it is the one `LastIndexOf` finds. */
  lemma LastIndexOfIs(s: string, c: char, k: nat)
    requires k < |s| && s[k] == c
    requires forall j :: k < j < |s| ==> s[j] != c
    ensures LastIndexOf(s, c) == Some(k)
  {
    var l := LastIndexOf(s, c).value;
    assert forall j :: l < j < |s| ==> s[l + 1..][j - l - 1] == s[j];
  }

  /** ASCII upper-casing of one character; every other character is unchanged. */
  function ToUpper(c: char): (u: char)
    ensures IsLowerLetter(c) ==> IsUpperLetter(u) && u as int == c as int - 32
    ensures !IsLowerLetter(c) ==> u == c
  {
    if IsLowerLetter(c) then (c as int - 32) as char else c
  }

  function UpperCase(s: string): (r: string)
    ensures |r| == |s| && forall i :: 0 <= i < |s| ==> r[i] == ToUpper(s[i])
  {
    seq(|s|, i requires 0 <= i < |s| => ToUpper(s[i]))
  }
}

=== FILE: wizard.dfy ===
/**
 The three-step booking wizard: package, then date and time, then review and
 confirm. The state is the page's selections; events are the controls the
 page renders at each step. The date picker's disabled-day rule lives here too.
 */
module Wizard {
  import opened Wrappers
  import opened Text
  import opened Clock
  import opened Domain
  import opened Slots
  import opened Packages
  import opened Confirm

  /**
   A calendar day is disabled when it is before today or falls on a Sunday or
   a Saturday.
   */
  function DayDisabled(day: int, today: int): (disabled: bool)
    ensures !disabled <==> today <= day && 1 <= Weekday(day) <= 5
  {
    day < today || Weekday(day) == 0 || Weekday(day) == 6
  }

  /** Number of selectable days among the `n` days from `from` on. */
  function EnabledDays(from: int, n: nat, today: int): nat
    decreases n
  {
    if n == 0 then 0 else (if DayDisabled(from, today) then 0 else 1) + EnabledDays(from + 1, n - 1, today)
  }

  /** The weekday after weekday `w`. */
  function NextWeekday(w: int): int {
    if w == 6 then 0 else w + 1
  }

  /** Number of Monday-to-Friday days among `n` consecutive days starting on weekday `w`. */
  function Workdays(w: int, n: nat): nat
    decreases n
  {
    if n == 0 then 0 else (if w == 0 || w == 6 then 0 else 1) + Workdays(NextWeekday(w), n - 1)
  }

  /** From today on, the selectable days among `n` are the workdays among them. */
  lemma {:induction false} EnabledAreWorkdays(from: int, n: nat, today: int)
    requires from >= today
    ensures EnabledDays(from, n, today) == Workdays(Weekday(from), n)
    decreases n
  {
    if n > 0 {
      WeekdayCalendar(from);
      assert Weekday(from + 1) == NextWeekday(Weekday(from));
      EnabledAreWorkdays(from + 1, n - 1, today);
    }
  }

  /** From today on, every run of seven consecutive days offers exactly five. */
  lemma WeekHasFiveBookableDays(from: int, today: int)
    requires from >= today
    ensures EnabledDays(from, 7, today) == 5
  {
    EnabledAreWorkdays(from, 7, today);
    var w := Weekday(from);
    if w == 0 {
      assert Workdays(0, 7) == 5;
    } else if w == 1 {
      assert Workdays(1, 7) == 5;
    } else if w == 2 {
      assert Workdays(2, 7) == 5;
    } else if w == 3 {
      assert Workdays(3, 7) == 5;
    } else if w == 4 {
      assert Workdays(4, 7) == 5;
    } else if w == 5 {
      assert Workdays(5, 7) == 5;
    } else {
      assert Workdays(6, 7) == 5;
    }
  }

  /** The selections of the booking page. */
  datatype State = State(
    step: int,
    groupId: Option<string>,
    pkg: Option<Package>,
    date: Option<int>,
    time: Option<string>)

  /** What the page reads from outside: the bookings query and the clock. */
  datatype Env = Env(response: Option<seq<Booking>>, now: int)

  /** The user's actions, each on a control the page renders at one step. */
  datatype Event =
    | ClickCard(card: DisplayPackage)   // step 1: a package card
    | PickSubOption(sub: Package)       // step 1: the select of the Base card
    | PickDate(date: Option<int>)       // step 2: the calendar
    | PickTime(time: string)            // step 2: a slot button
    | Next                              // "Avanti", steps 1 and 2
    | Back                              // "Indietro", steps 2 and 3

  /**
   The page as first rendered: step 1, today selected, nothing else. Today is
   selected whatever its weekday, since the disabled-day rule only guards the
   calendar's clicks.
   */
  function Initial(env: Env): (w: State)
    ensures Consistent(env, w)
    ensures w.step == 1 && w.pkg.None? && w.time.None?
    ensures w.date == Some(DayOf(env.now))
  {
    State(1, None, None, Some(DayOf(env.now)), None)
  }

  /**
   The disabled condition of the "Avanti" button: at step 1 it needs a
   package and a non-empty group id, at step 2 a non-empty time; elsewhere it
   is never disabled (step 3 does not show it).
   */
  function NextDisabled(w: State): (disabled: bool)
    ensures w.step == 1 ==> (!disabled <==> w.pkg.Some? && w.groupId.Some? && w.groupId.value != "")
    ensures w.step == 2 ==> (!disabled <==> w.time.Some? && w.time.value != "")
    ensures w.step != 1 && w.step != 2 ==> !disabled
  {
    (w.step == 1 && (w.pkg.None? || Falsy(w.groupId))) || (w.step == 2 && Falsy(w.time))
  }

  /** The grid shown at step 2 for the current selections. */
  function CurrentSlots(env: Env, w: State): seq<Slot> {
    if w.date.Some? && w.pkg.Some? then FetchSlots(w.date.value, w.pkg.value.durationMinutes, env.response, env.now)
    else []
  }

  /** Labels of the slot buttons that are enabled. */
  function AvailableLabels(slots: seq<Slot>): (r: seq<string>)
    ensures forall t :: t in r <==> exists i :: 0 <= i < |slots| && slots[i].available && slots[i].time == t
  {
    if |slots| == 0 then []
    else
      var rest := AvailableLabels(slots[1..]);
      assert forall i :: 1 <= i < |slots| ==> slots[1..][i - 1] == slots[i];
      (if slots[0].available then [slots[0].time] else []) + rest
  }

  /** Choosing a card at step 1: a single package is selected at once, a group waits for a sub-option. */
  function ChooseCard(w: State, card: DisplayPackage, resetTime: bool): (r: State)
    ensures r.step == w.step && r.date == w.date
    ensures w.step != 1 ==> r == w
    ensures w.step == 1 ==> r.groupId == Some(card.id) && (r.pkg.Some? <==> card.Card?)
    ensures w.step == 1 && card.Card? ==> CardOf(r.pkg.value) == card
    ensures !resetTime ==> r.time == w.time
    ensures resetTime && w.step == 1 ==> r.time.None?
  {
    if w.step != 1 then w
    else
      var pkg := if card.Card? then Some(PackageOf(card)) else None;
      w.(groupId := Some(card.id), pkg := pkg, time := if resetTime then None else w.time)
  }

  /** Choosing a sub-option of the base group at step 1. */
  function ChooseSubOption(w: State, sub: Package, resetTime: bool): (r: State)
    ensures r.step == w.step && r.groupId == w.groupId && r.date == w.date
    ensures w.step == 1 && w.groupId == Some(BaseGroupId) ==> r.pkg == Some(sub)
    ensures !(w.step == 1 && w.groupId == Some(BaseGroupId)) ==> r == w
    ensures !resetTime ==> r.time == w.time
    ensures resetTime && w.step == 1 && w.groupId == Some(BaseGroupId) ==> r.time.None?
  {
    if w.step != 1 || w.groupId != Some(BaseGroupId) then w
    else w.(pkg := Some(sub), time := if resetTime then None else w.time)
  }

  /**
   Choosing (or clearing) a date at step 2: an accepted pick clears the
   selected time, and a disabled day cannot be clicked, so it changes nothing.
   */
  function ChooseDate(env: Env, w: State, d: Option<int>): (r: State)
    ensures r.step == w.step && r.groupId == w.groupId && r.pkg == w.pkg
    ensures r.date != w.date ==> r.date == d && (d.Some? ==> !DayDisabled(d.value, DayOf(env.now)))
    ensures w.step == 2 && (d.None? || !DayDisabled(d.value, DayOf(env.now))) ==> r.date == d && r.time.None?
    ensures w.step != 2 ==> r == w
    ensures d.Some? && DayDisabled(d.value, DayOf(env.now)) ==> r == w
  {
    if w.step != 2 || (d.Some? && DayDisabled(d.value, DayOf(env.now))) then w
    else w.(date := d, time := None)
  }

  /** Choosing a time at step 2: only an enabled slot button can be clicked. */
  function ChooseTime(env: Env, w: State, t: string): (r: State)
    ensures r.step == w.step && r.groupId == w.groupId && r.pkg == w.pkg && r.date == w.date
    ensures r.time != w.time ==> r.time == Some(t) && t in AvailableLabels(CurrentSlots(env, w))
    ensures w.step == 2 && t in AvailableLabels(CurrentSlots(env, w)) ==> r.time == Some(t)
    ensures w.step != 2 ==> r == w
  {
    if w.step != 2 || t !in AvailableLabels(CurrentSlots(env, w)) then w
    else w.(time := Some(t))
  }

  /**
   One event. `resetTime` says whether choosing a package also clears the
   selected time, as choosing a date does: the page as written does not.
   */
  function StepWith(env: Env, w: State, e: Event, resetTime: bool): (r: State)
    ensures 1 <= w.step <= 3 ==> 1 <= r.step <= 3
    ensures r.step == w.step + 1 ==> e == Next && w.step < 3 && !NextDisabled(w)
    ensures r.step == w.step - 1 ==> e == Back && w.step > 1
    ensures r.step != w.step ==> r == w.(step := r.step)
    ensures r.time != w.time && r.time.Some? ==> r.time.value in AvailableLabels(CurrentSlots(env, w))
    ensures e.Next? || e.Back? ==> r.(step := w.step) == w
    ensures e == Next && w.step < 3 && !NextDisabled(w) ==> r.step == w.step + 1
    ensures e == Back && w.step > 1 ==> r.step == w.step - 1
  {
    match e
    case ClickCard(card) => ChooseCard(w, card, resetTime)
    case PickSubOption(sub) => ChooseSubOption(w, sub, resetTime)
    case PickDate(d) => ChooseDate(env, w, d)
    case PickTime(t) => ChooseTime(env, w, t)
    case Next =>
      if w.step < 3 && !NextDisabled(w) then w.(step := w.step + 1) else w
    case Back =>
      if w.step > 1 then w.(step := w.step - 1) else w
  }

  /** The page as written. */
  function StepAsWritten(env: Env, w: State, e: Event): State {
    StepWith(env, w, e, false)
  }

  /** The page with a package choice clearing the selected time. */
  function Step(env: Env, w: State, e: Event): State {
    StepWith(env, w, e, true)
  }

  function RunWith(env: Env, w: State, events: seq<Event>, resetTime: bool): State
    decreases |events|
  {
    if |events| == 0 then w else RunWith(env, StepWith(env, w, events[0], resetTime), events[1..], resetTime)
  }

  /**
   The wizard invariant of the corrected page: the step stays within 1..3, a
   package is chosen from step 2 on, a time is chosen at step 3, and a chosen
   time is always an enabled slot of the current day and package.
   */
  predicate Consistent(env: Env, w: State) {
    && 1 <= w.step <= 3
    && (w.step >= 2 ==> w.pkg.Some?)
    && (w.step == 3 ==> !Falsy(w.time))
    && (w.time.Some? ==> w.time.value in AvailableLabels(CurrentSlots(env, w)))
  }

  lemma StepKeepsConsistent(env: Env, w: State, e: Event)
    requires Consistent(env, w)
    ensures Consistent(env, Step(env, w, e))
  {
  }

  lemma {:induction false} RunKeepsConsistent(env: Env, w: State, events: seq<Event>)
    requires Consistent(env, w)
    ensures Consistent(env, RunWith(env, w, events, true))
    decreases |events|
  {
    if |events| > 0 {
      StepKeepsConsistent(env, w, events[0]);
      RunKeepsConsistent(env, Step(env, w, events[0]), events[1..]);
    }
  }

  /**
   On the corrected page, whatever the user did since it was opened, the
   booking confirmed at step 3 is one of the slots offered as available for
   the chosen day and package: inside 09:00-18:00, overlapping no booking the
   query returned, and not in the past.
   */
  lemma ConfirmedBookingWasOffered(env: Env, events: seq<Event>, user: string)
    ensures var w := RunWith(env, Initial(env), events, true);
      w.step == 3 ==>
        match HandleConfirm(Some(user), w.pkg, w.date, w.time)
        case Ok(b) =>
          && DayStart(w.date.value) <= b.start
          && b.end <= DayEnd(w.date.value)
          && !Conflicts(b.start, b.end, Fetched(env.response, w.date.value))
          && !IsPast(w.date.value, b.start, env.now)
        case Err(_) => false
  {
    var w := RunWith(env, Initial(env), events, true);
    RunKeepsConsistent(env, Initial(env), events);
    if w.step == 3 {
      var slots := CurrentSlots(env, w);
      var i :| 0 <= i < |slots| && slots[i].available && slots[i].time == w.time.value;
      ConfirmSlotRoundTrip(user, w.pkg.value, w.date.value, env.response, env.now, i);
    }
  }

  /*
   The as-written counterexample: a Monday (day 4), a stored booking from 09:30
   to 10:30, a 30-minute and a 60-minute package, and the clock on the day before.
   */
  const ExampleDay: int := 4
  const ExampleStored: Booking := Booking("b1", "u1", "p1", At(ExampleDay, 9 * 60 + 30), At(ExampleDay, 10 * 60 + 30), Pending)
  const ExampleEnv: Env := Env(Some([ExampleStored]), At(ExampleDay - 1, 0))
  const ShortPackage: Package := Package("p30", "Promo", "", 50, 30)
  const LongPackage: Package := Package("p60", "Gold", "", 90, 60)
  const ExampleEvents: seq<Event> := [ClickCard(CardOf(ShortPackage)), Next, PickDate(Some(ExampleDay)),
    PickTime("09:00"), Back, ClickCard(CardOf(LongPackage)), Next, Next]

  /** The day's query returns the stored booking. */
  lemma ExampleFetched()
    ensures Fetched(ExampleEnv.response, ExampleDay) == [ExampleStored]
  {
    assert QueryMatches(ExampleStored, ExampleDay);
    assert DayBookings([ExampleStored], ExampleDay) == [ExampleStored] by {
      assert [ExampleStored][1..] == [];
    }
  }

  /** 09:00-09:30 ends as the stored booking starts, and the clock is on the day before. */
  lemma ExampleNineIsFree()
    ensures Available(ExampleDay, SlotStart(ExampleDay, 0), 30, [ExampleStored], ExampleEnv.now)
  {
    assert !Overlaps(SlotStart(ExampleDay, 0), SlotStart(ExampleDay, 0) + 30, ExampleStored);
  }

  /** For the short package, 09:00 is an enabled slot. */
  lemma ExampleNineIsOffered()
    ensures "09:00" in AvailableLabels(FetchSlots(ExampleDay, 30, ExampleEnv.response, ExampleEnv.now))
  {
    var slots := FetchSlots(ExampleDay, 30, ExampleEnv.response, ExampleEnv.now);
    ExampleFetched();
    ExampleNineIsFree();
    WorkStartLabel();
    assert |slots| > 0;
    assert slots[0].time == "09:00";
    assert slots[0].available;
  }

  /** Running a non-empty event list is one step followed by the rest. */
  lemma RunUnfold(env: Env, w: State, events: seq<Event>, resetTime: bool)
    requires |events| > 0
    ensures RunWith(env, w, events, resetTime) == RunWith(env, StepWith(env, w, events[0], resetTime), events[1..], resetTime)
  {
  }

  /** A time click is handled by `ChooseTime` alone. */
  lemma PickTimeStep(env: Env, w: State, t: string, resetTime: bool)
    ensures StepWith(env, w, PickTime(t), resetTime) == ChooseTime(env, w, t)
  {
  }

  /** Picking an offered time at step 2 records it and changes nothing else. */
  lemma PickOfferedTime(env: Env, w: State, t: string)
    requires w.step == 2 && t in AvailableLabels(CurrentSlots(env, w))
    ensures ChooseTime(env, w, t) == w.(time := Some(t))
  {
  }

  /** The state after the first four events: the short package, day 4, 09:00 picked. */
  const ExampleMidway: State := State(2, Some("p30"), Some(ShortPackage), Some(ExampleDay), Some("09:00"))

  /** Day 4, a Monday after the clock's day, can be picked at step 2. */
  lemma ExampleDateStep()
    ensures StepAsWritten(ExampleEnv, State(2, Some("p30"), Some(ShortPackage), Some(ExampleDay - 1), None), PickDate(Some(ExampleDay)))
      == State(2, Some("p30"), Some(ShortPackage), Some(ExampleDay), None)
  {
    assert !DayDisabled(ExampleDay, DayOf(ExampleEnv.now)) by {
      assert DayOf(ExampleEnv.now) == ExampleDay - 1;
      assert Weekday(ExampleDay) == 1;
    }
  }

  /** 09:00 can then be picked for the short package. */
  lemma ExampleTimeStep()
    ensures StepAsWritten(ExampleEnv, State(2, Some("p30"), Some(ShortPackage), Some(ExampleDay), None), PickTime("09:00"))
      == ExampleMidway
  {
    var w3 := State(2, Some("p30"), Some(ShortPackage), Some(ExampleDay), None);
    assert "09:00" in AvailableLabels(CurrentSlots(ExampleEnv, w3)) by {
      ExampleNineIsOffered();
    }
    PickOfferedTime(ExampleEnv, w3, "09:00");
    PickTimeStep(ExampleEnv, w3, "09:00", false);
  }

  /** The first four events choose the short package, move on, pick day 4 and then 09:00. */
  lemma ExampleTraceStart()
    ensures RunWith(ExampleEnv, Initial(ExampleEnv), ExampleEvents, false)
      == RunWith(ExampleEnv, ExampleMidway, ExampleEvents[4..], false)
  {
    var env := ExampleEnv;
    var e := ExampleEvents;
    var w0 := Initial(env);
    var w1 := State(1, Some("p30"), Some(ShortPackage), Some(ExampleDay - 1), None);
    var w2 := w1.(step := 2);
    var w3 := State(2, Some("p30"), Some(ShortPackage), Some(ExampleDay), None);
    assert StepAsWritten(env, w0, e[0]) == w1;
    assert StepAsWritten(env, w1, e[1]) == w2;
    assert e[2] == PickDate(Some(ExampleDay)) && e[3] == PickTime("09:00");
    ExampleDateStep();
    ExampleTimeStep();
    RunUnfold(env, w0, e, false);
    RunUnfold(env, w1, e[1..], false);
    RunUnfold(env, w2, e[2..], false);
    RunUnfold(env, w3, e[3..], false);
    assert e[1..][1..] == e[2..] && e[2..][1..] == e[3..] && e[3..][1..] == e[4..];
  }

  /** The last four events go back, switch to the long package and move on twice. */
  lemma ExampleTraceEnd()
    ensures RunWith(ExampleEnv, ExampleMidway, ExampleEvents[4..], false)
      == State(3, Some("p60"), Some(LongPackage), Some(ExampleDay), Some("09:00"))
  {
    var env := ExampleEnv;
    var e := ExampleEvents[4..];
    assert e == [Back, ClickCard(CardOf(LongPackage)), Next, Next];
    var w4 := ExampleMidway;
    var w5 := w4.(step := 1);
    var w6 := State(1, Some("p60"), Some(LongPackage), Some(ExampleDay), Some("09:00"));
    var w7 := w6.(step := 2);
    var w8 := w6.(step := 3);
    assert StepAsWritten(env, w4, e[0]) == w5;
    assert StepAsWritten(env, w5, e[1]) == w6 by {
      assert PackageOf(CardOf(LongPackage)) == LongPackage;
    }
    assert StepAsWritten(env, w6, e[2]) == w7;
    assert StepAsWritten(env, w7, e[3]) == w8;
    RunUnfold(env, w4, e, false);
    RunUnfold(env, w5, e[1..], false);
    RunUnfold(env, w6, e[2..], false);
    RunUnfold(env, w7, e[3..], false);
    assert e[1..][1..] == e[2..] && e[2..][1..] == e[3..] && e[3..][1..] == [];
  }

  /** The event trace ends at step 3 with the long package and the stale 09:00. */
  lemma ExampleTrace()
    ensures RunWith(ExampleEnv, Initial(ExampleEnv), ExampleEvents, false)
      == State(3, Some("p60"), Some(LongPackage), Some(ExampleDay), Some("09:00"))
  {
    ExampleTraceStart();
    ExampleTraceEnd();
  }

  /**
   On the page as written, a time picked for a 30-minute package survives a
   switch to a 60-minute one: 09:00 is free for 30 minutes next to the booking
   from 09:30 to 10:30, and the booking confirmed after the switch runs from
   09:00 to 10:00, overlapping it.
   */
  lemma StaleTimeCounterexample()
    ensures var w := RunWith(ExampleEnv, Initial(ExampleEnv), ExampleEvents, false);
      && w.step == 3
      && match HandleConfirm(Some("u2"), w.pkg, w.date, w.time)
         case Ok(b) => Conflicts(b.start, b.end, Fetched(ExampleEnv.response, ExampleDay))
         case Err(_) => false
  {
    ExampleTrace();
    WorkStartLabel();
    ConfirmLabel("u2", LongPackage, ExampleDay, WorkStart);
    ExampleFetched();
    assert Overlaps(At(ExampleDay, WorkStart), At(ExampleDay, WorkStart) + 60, ExampleStored);
  }

  /*
   Opening the page on a weekend: Saturday 3 January 1970 (day 2) at 08:00,
   with no bookings stored.
   */
  const WeekendDay: int := 2
  const WeekendEnv: Env := Env(Some([]), At(WeekendDay, 8 * 60))
  const WeekendEvents: seq<Event> := [ClickCard(CardOf(LongPackage)), Next, PickTime("09:00"), Next]

  /** With nothing stored, the 09:00 slot of a day is offered for an hour's session until 09:00 comes. */
  lemma NineIsOfferedOnEmptyTable(day: int, now: int)
    requires now < SlotStart(day, 0)
    ensures "09:00" in AvailableLabels(FetchSlots(day, 60, Some([]), now))
  {
    var slots := FetchSlots(day, 60, Some([]), now);
    assert |slots| > 0;
    assert slots[0].available by {
      assert Fetched(Some([]), day) == [];
    }
    assert slots[0].time == "09:00" by {
      WorkStartLabel();
    }
  }

  /** Choosing the long package, moving on, picking 09:00 and moving on reaches step 3 on that Saturday. */
  lemma WeekendTrace()
    ensures RunWith(WeekendEnv, Initial(WeekendEnv), WeekendEvents, true)
      == State(3, Some("p60"), Some(LongPackage), Some(WeekendDay), Some("09:00"))
  {
    var env := WeekendEnv;
    var e := WeekendEvents;
    var w0 := Initial(env);
    assert DayOf(env.now) == WeekendDay;
    var w1 := State(1, Some("p60"), Some(LongPackage), Some(WeekendDay), None);
    var w2 := w1.(step := 2);
    var w3 := w2.(time := Some("09:00"));
    var w4 := w3.(step := 3);
    assert Step(env, w0, e[0]) == w1 by {
      assert PackageOf(CardOf(LongPackage)) == LongPackage;
    }
    assert Step(env, w1, e[1]) == w2;
    assert Step(env, w2, e[2]) == w3 by {
      assert e[2] == PickTime("09:00");
      NineIsOfferedOnEmptyTable(WeekendDay, WeekendEnv.now);
      PickOfferedTime(env, w2, "09:00");
      PickTimeStep(env, w2, "09:00", true);
    }
    assert Step(env, w3, e[3]) == w4;
    RunUnfold(env, w0, e, true);
    RunUnfold(env, w1, e[1..], true);
    RunUnfold(env, w2, e[2..], true);
    RunUnfold(env, w3, e[3..], true);
    assert e[1..][1..] == e[2..] && e[2..][1..] == e[3..] && e[3..][1..] == [];
  }

  /**
   The date the page opens with is today, and no weekday check applies to it:
   opened on a Saturday, the page takes a client to the confirmation of a
   09:00 session that Saturday, a day its calendar shows as disabled.
   */
  lemma WeekendBookedFromOpeningDay(user: string)
    ensures var w := RunWith(WeekendEnv, Initial(WeekendEnv), WeekendEvents, true);
      && w.step == 3
      && w.date == Some(WeekendDay)
      && DayDisabled(WeekendDay, DayOf(WeekendEnv.now))
      && match HandleConfirm(Some(user), w.pkg, w.date, w.time)
         case Ok(b) => b.start == At(WeekendDay, WorkStart) && b.end == At(WeekendDay, WorkStart + 60)
         case Err(_) => false
  {
    WeekendTrace();
    WorkStartLabel();
    ConfirmLabel(user, LongPackage, WeekendDay, WorkStart);
    WeekdayCalendar(WeekendDay);
  }
}

=== FILE: wrappers.dfy ===
/** The optional-value and success-or-error types shared by every module of the model. */
module Wrappers {

  /** A value that may be absent: JavaScript's `null` / `undefined`. */
  datatype Option<+T> = None | Some(value: T)

  /** The outcome of an operation that can fail with an error of type E. */
  datatype Result<+T, +E> = Ok(value: T) | Err(error: E)
}
